=== FILE: README.md ===
# Study log: a verified model of the client's data core

The study log is an offline notebook. Each note has a title and a body and is
filed under the local calendar day on which it was written. All state lives
in one JSON document in the browser's `localStorage` under the key
`studyLogsV2`. That document maps a date key (`2025-03-07`) to a day bucket
`{ items: [...] }`, whose notes are kept newest first.

This project models the logic of `client/main.js` that decides what is
stored and what is shown. It covers:

- the store and its operations: load, save, `ensureDay`, `getItems`,
  `upsertItem`, `deleteItem` and the wipe;
- date keys: `formatDateKey`, `todayKey` and `dateKeyMinus`;
- the save handler, which builds a note from the form and upserts it;
- the review page: the `labelFor` headings, the three fixed blocks, and the
  selectable offsets 0 to 14;
- the backup: `exportJson`, `validateImportedPayload` and the overwrite that
  follows a successful validation;
- `escapeHtml`.

Modules, one per file:

| module | file | what it holds |
|---|---|---|
| `Wrappers` | `wrappers.dfy` | `Option`, `Result` and `Outcome` |
| `Text` | `text.dfy` | the JavaScript string behaviour the client uses: `String(n)` for integers, `padStart` and `trim` |
| `Calendar` | `calendar.dfy` | civil dates, stepping one day back or forward, and an independent running day count (`DayNumber`) to prove the stepping against |
| `DateKey` | `date_key.dfy` | date keys, with a parser used as their inverse |
| `NoteStore` | `note_store.dfy` | the persisted document and the CRUD operations, as pure functions from the loaded map to the saved map |
| `SaveItem` | `save_item.dfy` | the save button |
| `Review` | `review.dfy` | headings and review slots, with a heading parser used as the inverse of `labelFor` |
| `Html` | `html.dfy` | `escapeHtml`, with the browser's entity decoding as its inverse |
| `Json` | `json.dfy` | parsed JSON values and the JavaScript operators the import applies to them |
| `Backup` | `backup.dfy` | export, validation and import |

Inputs that come from the outside world are parameters:

- today's local date is a `CivilDate`;
- `Date.now()` is `now`;
- the id `uid()` would generate is `freshId`;
- the ISO timestamp of an export is `exportedAt`;
- the result of `JSON.parse` is a `Json` value;
- what `localStorage` holds is a `Document`: absent, corrupt or saved.

## Model

| member | source | states |
|---|---|---|
| NoteStore.LoadAll | client/main.js:13-16 | Loading gives back the saved store. A missing or unparsable document loads as the empty store, so reading never fails. |
| NoteStore.SaveAll | client/main.js:17-19 | Whatever is saved is exactly what the next load returns. |
| NoteStore.Wipe | client/main.js:438 | After a wipe the store is empty and every date key reads as no notes. |
| NoteStore.GetItems | client/main.js:46-50 | A day without a bucket reads as no notes. A day with a bucket reads as that bucket's notes. |
| NoteStore.EnsureDay | client/main.js:41-45 | Afterwards the key has a bucket. What every key reads as is unchanged, and no other key is touched. |
| NoteStore.FindIndex | client/main.js:54 | The result is the first position holding the id, or -1 exactly when no item has it. |
| NoteStore.UpsertItem | client/main.js:51-58 | Afterwards the day has a bucket whose items are the old ones after the upsert. Every other day is untouched. |
| NoteStore.UpsertReplacesInPlace | client/main.js:54-55 | A note whose id is present replaces the first item with that id at the same position. Length and all other positions are unchanged. |
| NoteStore.UpsertPrependsNew | client/main.js:56 | A note with a new id goes in front of the day's items, so the bucket grows by one (newest first). |
| NoteStore.UpsertIntoPositions | client/main.js:54-56 | After an upsert the note is in the bucket. The bucket grows by one exactly when the id was new. Every item with another id stays at its place, one further back when the note went in front. |
| NoteStore.UpsertIntoIdempotent | client/main.js:54-56 | Upserting the same note twice into a bucket equals upserting it once. |
| NoteStore.UpsertIdempotent | client/main.js:51-58 | Upserting the same note twice leaves the same store as upserting it once. |
| NoteStore.UpsertKeepsIdsUnique | client/main.js:51-58 | Unique ids in the day stay unique after an upsert, and the upserted note is then the only item with its id. |
| NoteStore.RemoveId | client/main.js:62 | The filter keeps exactly the items whose id differs, each as many times as it occurred. Every item with the id is gone. |
| NoteStore.RemoveIdKeepsOrder | client/main.js:62 | The filter's result is a subsequence of the bucket: the remaining items keep their order. |
| NoteStore.RemoveAbsentId | client/main.js:62 | Filtering out an id that no item has leaves the bucket unchanged. |
| NoteStore.DeleteItem | client/main.js:59-64 | Afterwards the day has a bucket holding the filtered items. Every other day is untouched. |
| NoteStore.DeleteLeavesOthersInOrder | client/main.js:59-64 | A delete keeps exactly the notes with another id, each as many times as before and in their original order. Deleting an absent id changes nothing the day reads as. |
| NoteStore.DeleteCreatesMissingBucket | client/main.js:59-64 | Deleting from a day without a bucket leaves that day with an empty bucket and changes nothing else. |
| NoteStore.DeleteAbsentIsNoOp | client/main.js:59-64 | Deleting an id that an existing bucket does not hold leaves the whole store unchanged. |
| NoteStore.DeleteIdempotent | client/main.js:59-64 | Deleting twice equals deleting once. |
| NoteStore.DeleteUndoesNewUpsert | client/main.js:51-64 | Deleting a note just added under a fresh id restores what every day reads as. |
| NoteStore.NewestFirstScenario | client/main.js:51-64 | Saving a then b gives [b, a]. Updating a keeps its place ([b, a']). Deleting a leaves [b]. |
| Text.IntToDecimalRoundTrip | client/main.js:23-26 | The decimal text of an integer, as a template literal prints it, reads back as that integer. |
| Text.CanonicalDigits | client/main.js:23-26 | A digit string with no leading zero is the only way `String(n)` writes its value. |
| Text.CanonicalDecimal | client/main.js:23-26 | A text is canonical decimal (optional '-', no leading zero, never "-0") exactly when it is how `String(n)` writes the number it reads as. |
| Text.PadStart | client/main.js:24-25 | `padStart` gives at least the width. The original text is the suffix, and only fill characters go in front. |
| Text.Trim | client/main.js:314-315 | The trimmed text neither starts nor ends with white space. It is empty exactly when the input is all white space. |
| Text.TrimEmptyIff | client/main.js:314-315 | Trimming both ends gives the empty string exactly when the input is all white space. |
| Text.TrimIsSlice | client/main.js:314-315 | The trimmed text is one contiguous slice of the input, and only white space lies on either side of it. |
| Text.TrimIdempotent | client/main.js:314-315 | Trimming twice equals trimming once. |
| Calendar.PrevDayNumber | client/main.js:31 | Stepping one calendar day back lowers the independent running day count by exactly one, across month and year ends and leap days. |
| Calendar.NextDayNumber | client/main.js:31 | Stepping one calendar day forward (a negative `days`) raises the running day count by exactly one. |
| Calendar.ShiftDaysNumber | client/main.js:28-33 | `setDate(getDate() - days)` moves the running count by exactly `days`, for any integer. |
| Calendar.DayNumberInjective | client/main.js:28-33 | Two valid dates with the same running day number are the same date. |
| Calendar.ShiftDaysCompose | client/main.js:28-33 | Shifting by a, then by b, equals shifting by a + b. |
| DateKey.TwoDigitsValue | client/main.js:24-25 | A month or day below 100 is padded to exactly two digits that denote it. |
| DateKey.KeyTextShape | client/main.js:22-27 | In a key, the month and the day are the two-digit fields after the last two '-'. The year is everything before them. |
| DateKey.KeyTextYear | client/main.js:22-26 | The year field of a key is the year in canonical decimal. A year from 1000 to 9999 gives a key of exactly ten characters. |
| DateKey.FormatDateKey | client/main.js:22-27 | A key reads back as its date, so no two dates share a key. It uses only digits and '-'. Its year field has no leading zero, and a year from 1000 to 9999 gives exactly ten characters (`YYYY-MM-DD`). |
| DateKey.CanonicalKeyUnique | client/main.js:22-27 | A text that reads back as a date and whose year field is canonical is exactly that date's key. So the key contract admits no other text, such as `02025-03-07`. |
| DateKey.FormatDateKeyInjective | client/main.js:22-27 | Two valid dates share a key exactly when they are the same date. |
| DateKey.TodayKey | client/main.js:34-38 | Today's key reads back as today's date. Its year field has no leading zero, and a year from 1000 to 9999 gives exactly ten characters. |
| DateKey.DateKeyMinus | client/main.js:28-33 | The key names a valid date exactly `days` days before today by the running count. Offset 0 gives today's key. |
| DateKey.DateKeyMinusUnique | client/main.js:28-33 | The key `dateKeyMinus` yields is the key of the only date exactly `days` days back. |
| DateKey.DateKeyMinusDistinct | client/main.js:28-33 | Different offsets give different keys. |
| DateKey.DateKeyMinusAdditive | client/main.js:28-33 | Going back a days from the date a days back gives the key for a + b days back. |
| Html.EscapeHtml | client/main.js:67-71 | No '<', '>', '"' or '\'' survives escaping, and escaping never shortens the text. |
| Html.LeadingEntityOfEscape | client/main.js:68-70 | The replacement of a special character starts with exactly the entity that decodes back to that character. Other characters start no entity. |
| Html.EscapeRoundTrip | client/main.js:67-71 | Decoding the entities of escaped text gives back the original text, so the page shows what was typed. |
| Html.EscapePlainText | client/main.js:67-71 | Text without the five special characters is left unchanged. |
| Html.EscapeInjective | client/main.js:67-71 | Different texts escape differently. |
| Review.LabelFor | client/main.js:182-188 | Every heading ends with the day count in decimal followed by `日前）`, and shows the date key. For any offset other than 0, 1, 7 and 14, the heading ends with `（`, then the count exactly as `String(days)` writes it, then `日前）`. Together with `Review.LabelRoundTrip`, this leaves only the text main.js:187 writes. |
| Review.PlainCount | client/main.js:187 | A plain heading ends with its count between `（` and `日前）`. |
| Review.LabelNamesItsOffset | client/main.js:182-188 | The text before a heading's first '（' is a day name exactly for offsets 0, 1, 7 and 14, and it names that offset. Every other offset's heading starts with the key itself. |
| Review.NamedHeads | client/main.js:183-186 | The four named headings start with 今日, 昨日, 1週間前 and 2週間前. |
| Review.PlainHead | client/main.js:187 | A heading for any other offset starts with its key, up to the first '（'. |
| Review.LabelParts | client/main.js:183-187 | In a heading built from a prefix, the key, a separator and the day count, the key appears and the heading ends with the count and `日前）`. |
| Review.NamedLabelParts | client/main.js:183-186 | The four named headings write out 0, 1, 7 and 14 as their decimal text. Each ends with that count and `日前）` and shows the key. |
| Review.LabelRoundTrip | client/main.js:182-188 | A heading built from an offset and a date key reads back as that offset and that key. This covers the four named offsets and the plain form. |
| Review.NamedLabel | client/main.js:183-186 | A named heading (today, yesterday, one or two weeks ago) reads back as its offset and key. |
| Review.PlainLabel | client/main.js:187 | The plain heading `key（n日前）` reads back as n and the key. |
| Review.LabelInjective | client/main.js:182-188 | Two blocks with different offsets or different keys get different headings. |
| Review.SlotMeaning | client/main.js:190-192 | A block's key names the date exactly `offset` days back, and its heading reads back as that offset and key. |
| Review.SelectableSlots | client/main.js:200-214 | The selector offers exactly the 15 offsets 0 to 14, in order. Entry i has offset i. Its key names the date exactly i days back, and its heading reads back as i and that key. |
| Review.DefaultSlotIsToday | client/main.js:208-213 | The selector's default entry reads today's bucket. |
| Review.FixedSlotsAreSelectable | client/main.js:225-227 | The fixed blocks are the selectable blocks for 1, 7 and 14 days back. |
| Review.SelectableSlotsDistinct | client/main.js:202-213 | No two selectable blocks read the same day's bucket. |
| SaveItem.FindById | client/main.js:321 | A note is found exactly when the bucket has the id, and it is the first item carrying that id. |
| SaveItem.BuildNote | client/main.js:314-329 | A blank title (after trimming) is refused first, then a blank body. A built note holds the trimmed, non-empty title and body and is updated at `now`. |
| SaveItem.SaveNote | client/main.js:313-331 | The save fails exactly when the title or the body is blank. A save writes today's bucket and no other. |
| SaveItem.SaveEditInPlace | client/main.js:321-331 | Saving an edit of a note still in today's bucket rewrites it in place. It keeps the id, position and creation time and takes the new text and `now`. |
| SaveItem.SaveNewPrepends | client/main.js:323-331 | A new note goes in front of today's bucket, created and updated at `now`, under the fresh id. |
| SaveItem.SaveVanishedEditPrepends | client/main.js:321-331 | Saving an edit whose note is no longer in today's bucket does not fail. The note goes in front again, under the same id, created at `now`. |
| SaveItem.UpsertKeepsTimesOrdered | client/main.js:327-331 | An upsert of a well-timed note keeps created ≤ updated ≤ now for every item. |
| SaveItem.BuiltNoteTimesOrdered | client/main.js:327-328 | A built note is created no later than updated, and updated at `now`. |
| SaveItem.SaveKeepsTimesOrdered | client/main.js:320-331 | Unless the clock went back, a save keeps every note of today created no later than updated, and updated no later than now. |
| SaveItem.SaveKeepsIdsUnique | client/main.js:324-331 | A save keeps the ids of today's bucket unique. |
| Json.Lookup | client/main.js:375 | A property read finds a value exactly when some member has that name. |
| Json.Entries | client/main.js:378 | `Object.entries` lists an object's members in order. For an array it lists the elements in order. |
| Backup.FirstBucketFailure | client/main.js:378-383 | The loop passes exactly when every bucket passes. Otherwise it reports the failure of the first failing bucket. |
| Backup.ValidateAsWritten | client/main.js:373-384 | The check as written passes exactly when the payload is an object whose `data` is either an object of buckets or an array of buckets, each bucket with an `items` array. A payload that is not an object or array fails first. Next, `data` that is missing or neither an object nor an array fails. A bucket failure is the error of the first entry of `data` that fails, in order, for an array `data` as well as an object `data`, and every entry before it passes. |
| Backup.BucketChecksPass | client/main.js:378-383 | The loop over the entries passes exactly when every entry is an object with an `items` array. |
| Backup.Validate | client/main.js:373-384 | The corrected validation (see Findings) passes exactly when the payload is an object whose `data` is an object of buckets, each with an `items` array. It refuses an array `data`, which the code accepts. Otherwise it fails at the same check, with the same error, as the code. |
| Backup.ValidateAgreesUnlessArrayData | client/main.js:373-384 | The corrected validation agrees with the code on every payload whose `data` is not an array. |
| Backup.ArrayDataPassesAsWritten | client/main.js:375 | `{"data": []}` passes the validation as written, though its `data` is not a store. |
| Backup.EmptyDataAccepted | client/main.js:373-396 | A backup whose `data` is `{}` passes validation, as written and corrected. Importing it leaves an empty store, whatever was stored before. |
| Backup.NoteRoundTrip | client/main.js:323-329 | A note written as JSON reads back as the same note. |
| Backup.DecodeItemsMeaning | client/main.js:396 | A bucket's items read back exactly when each is a note record, each at its own position. |
| Backup.ItemsRoundTrip | client/main.js:353 | A bucket's items written out read back as the same items in the same order. |
| Backup.BucketRoundTrip | client/main.js:353 | A bucket written out has a bucket's shape and reads back as its items. |
| Backup.DecodeStoreKeys | client/main.js:396 | An imported store has a bucket for each date key of `data` and no other. |
| Backup.DecodeStoreItems | client/main.js:396 | Each imported bucket holds its member's items, read back in order. |
| Backup.ImportPayload | client/main.js:391-396 | A refused payload leaves the document unchanged and reports the validation's first error. A validated payload whose items are all notes is always imported; one with a non-note item is refused with `ItemNotANote`, and only then. An import replaces the whole store with the decoded `data`: same date keys, same items, no merge. |
| Backup.ImportRefusesArrayData | client/main.js:375-396 | A backup whose `data` is an array is refused and the document is left as it was, unlike the code, which saves it. |
| Backup.BackupNameOfKey | client/main.js:359 | The backup file name carries exactly the date its key names. |
| Backup.BackupFileName | client/main.js:357-359 | The export is offered under a name that carries today's date. |
| Backup.ExportPayloadData | client/main.js:345-351 | The backup document's `data` is the exported store. |
| Backup.ExportStep | client/main.js:344-350 | Adding one more bucket to the exported members keeps them a faithful image of the buckets done so far. |
| Backup.ExportData | client/main.js:344-350 | The exported `data` is an object of buckets with distinct keys that reads back as exactly the store. |
| Backup.ExportJson | client/main.js:343-351 | The backup document passes validation, and importing it over any document restores exactly the exported store. |

## Left out

- The DOM, rendering and messages are not modelled: tabs, lists, the detail pane, `setMsg`, the form reset and the option texts of `buildOffsetOptions`. Only the values they display are modelled: headings, keys and escaped text.
- `localStorage` and `JSON.parse`/`JSON.stringify` are replaced by `Document` and `Json` values. The text encoding, pretty-printing and parse errors are not modelled. An unparsable stored document is `Corrupt`, which `LoadAll` reads as empty.
- `new Date()`, the 12:00 pinning and time zones are not modelled. The local civil date is a parameter, and `Calendar` models the calendar-day stepping the pinning is there to guarantee.
- `Date.now()`, `uid()` and `new Date().toISOString()` are parameters (`now`, `freshId`, `exportedAt`), since they read a clock or a random source.
- `Blob`, `URL.createObjectURL`, the download anchor, `FileReader` and `confirm()` are not modelled: they are browser I/O and user dialogs.
- The service worker (`client/service-worker.js`) and the server are not part of this model.
- Numbers are integers only. Timestamps and the version are integral, and floating-point values are not modelled.
- Object members keep the order in which they are listed, and each key occurs once. JavaScript's own ordering of integer-like keys is not modelled, so `ExportData` may emit the buckets in any order.
- NoteStore.EnsureDay: the branch that repairs a bucket whose `items` is not an array (main.js:43) is not modelled. The store's `Bucket` always holds a list of notes, and the import only writes buckets with an `items` array.
- NoteStore.GetItems: a bucket whose `items` is falsy reads as empty in the source. That case cannot arise in the typed store.
- Backup.Validate: the key check `typeof k !== "string"` (main.js:379) is not modelled as a separate error. `Object.entries` always yields string keys, so that branch cannot be reached.
- Backup.ImportPayload: an accepted payload whose items are not all note records is refused with `ItemNotANote`. The source would write such items into the store unchanged. The typed store cannot hold them, so this case is weaker than the source, which imports them.
- Backup.ImportPayload: the import runs the corrected validation `Backup.Validate`, not the check as written. A backup whose `data` is an array, which main.js:375 lets through and main.js:396 saves as the whole store, is refused with `DataNotFound` and the document is left unchanged (`Backup.ImportRefusesArrayData`). A `Document` cannot hold a saved array. The as-written check is `Backup.ValidateAsWritten` (see Findings).
- Backup.ImportPayload: the per-bucket statement about imported items assumes `data` has no repeated key, since a parsed JSON object never has one.
- Dynamic typing: a note field of the wrong type (a numeric title, a missing `createdAt`) is not modelled outside the import decoding.

Behaviour of the code that the model keeps as it is:

- The year of a date key is written as `String(year)` without padding, so keys of years before 1000 are shorter than `YYYY-MM-DD` (main.js:23, 26).
- Saving an edit of a note that has left today's bucket while the form was open adds the note again, under the same id, and reports no error (main.js:321-331; `SaveItem.SaveVanishedEditPrepends`).
- The selector offers the offsets 0 to 14 inclusive (main.js:202).

## Findings

| source | as written | input that shows it | evidently intended | confidence | as-written member | corrected member |
|---|---|---|---|---|---|---|
| client/main.js:375 | `typeof payload.data !== "object"` is the check that `data` is a store, and an array passes it | `{"data": []}`, which is then saved as the whole store. Each later upsert adds a named property to that array, and `JSON.stringify` drops it, so new notes are lost. | Only a plain object of date-keyed buckets is accepted as `data` | medium, not executed | Backup.ArrayDataPassesAsWritten | Backup.Validate |

=== FILE: backup.dfy ===
/** Backup export and import (`exportJson`, `validateImportedPayload`,
    `importJsonFile` in client/main.js): the whole store written out as a
    JSON document, and a document checked and then written over the store. */
module Backup {
  import opened Wrappers
  import opened Text
  import opened Json
  import opened NoteStore
  import opened Calendar
  import opened DateKey

  /** Why an import is refused, in the order the checks run. */
  datatype ImportError =
    | MalformedDocument   // the payload is not an object
    | DataNotFound        // `data` is missing or not an object
    | MalformedBucket     // some bucket is not an object
    | ItemsNotFound       // some bucket has no `items` array
    | ItemNotANote        // an item is not a note record (see README)

  // ----- Validation -----

  /** The checks one `[k, v]` entry of `data` goes through. */
  function BucketCheck(v: Json): Outcome<ImportError> {
    if !Truthy(v) || !TypeofObject(v) then Fail(MalformedBucket)
    else match Get(v, "items")
      case Some(JArr(_)) => Pass
      case _ => Fail(ItemsNotFound)
  }

  /** The loop over `Object.entries(data)`: the failure of the first entry
      that fails, or `Pass` when none does. */
  function FirstBucketFailure(entries: seq<Member>): (o: Outcome<ImportError>)
    ensures o.Pass? <==> forall i :: 0 <= i < |entries| ==> BucketCheck(entries[i].value).Pass?
    ensures o.Fail? ==> exists i :: 0 <= i < |entries| && BucketCheck(entries[i].value) == o
                          && forall j :: 0 <= j < i ==> BucketCheck(entries[j].value).Pass?
  {
    if |entries| == 0 then Pass
    else if BucketCheck(entries[0].value).Fail? then BucketCheck(entries[0].value)
    else
      var o := FirstBucketFailure(entries[1..]);
      assert o.Fail? ==> exists i :: 1 <= i < |entries| && BucketCheck(entries[i].value) == o
                          && forall j :: 0 <= j < i ==> BucketCheck(entries[j].value).Pass? by {
        if o.Fail? {
          var i :| 0 <= i < |entries[1..]| && BucketCheck(entries[1..][i].value) == o
                    && forall j :: 0 <= j < i ==> BucketCheck(entries[1..][j].value).Pass?;
          assert BucketCheck(entries[i + 1].value) == o;
          assert forall j :: 1 <= j < i + 1 ==> entries[j] == entries[1..][j - 1];
        }
      }
      o
  }

  /** `validateImportedPayload` exactly as written: `typeof x !== "object"`
      lets an array through as `data`. */
  function ValidateAsWritten(payload: Json): (o: Outcome<ImportError>)
    ensures o.Pass? <==>
              && payload.JObj? && Get(payload, "data").Some?
              && var data := Get(payload, "data").value;
                 || IsStoreShape(data)
                 || (data.JArr? && forall i :: 0 <= i < |data.elems| ==> IsBucketShape(data.elems[i]))
    ensures o == Fail(MalformedDocument) <==> !payload.JObj? && !payload.JArr?
    ensures o == Fail(DataNotFound) <==>
              (payload.JObj? || payload.JArr?)
              && !(Get(payload, "data").Some? && (Get(payload, "data").value.JObj? || Get(payload, "data").value.JArr?))
    ensures o.Fail? && o.error in {MalformedBucket, ItemsNotFound} ==>
              var es := Entries(Get(payload, "data").value);
              exists i :: 0 <= i < |es| && BucketCheck(es[i].value) == o
                && forall j :: 0 <= j < i ==> BucketCheck(es[j].value).Pass?
    ensures o != Fail(ItemNotANote)
  {
    if !Truthy(payload) || !TypeofObject(payload) then Fail(MalformedDocument)
    else match Get(payload, "data")
      case None => Fail(DataNotFound)
      case Some(data) =>
        if !Truthy(data) || !TypeofObject(data) then Fail(DataNotFound)
        else
          var es := Entries(data);
          BucketChecksPass(es);
          FirstBucketFailure(es)
  }

  /** The loop passes exactly when every entry has the shape of a bucket. */
  lemma BucketChecksPass(es: seq<Member>)
    ensures FirstBucketFailure(es).Pass? <==> forall i :: 0 <= i < |es| ==> IsBucketShape(es[i].value)
  {
    assert forall v :: BucketCheck(v).Pass? <==> IsBucketShape(v);
  }

  /** A bucket as the store holds it: an object with an `items` array. */
  predicate IsBucketShape(v: Json) {
    v.JObj? && Lookup(v.members, "items").Some? && Lookup(v.members, "items").value.JArr?
  }

  /** A store as the store holds it: an object (not an array) of buckets. */
  predicate IsStoreShape(data: Json) {
    data.JObj? && forall i :: 0 <= i < |data.members| ==> IsBucketShape(data.members[i].value)
  }

  /** The validation the import relies on: the checks of
      `validateImportedPayload`, in the same order and with the same
      errors, except that an array is refused as `data`.

      It passes exactly when the payload is an object whose `data` has the
      shape of a store. Each failure is the one of the first check that
      fails: not an object; no object `data`; then, entry by entry, a
      bucket that is not an object or a bucket without `items` array. */
  function Validate(payload: Json): (o: Outcome<ImportError>)
    ensures o.Pass? <==> payload.JObj? && Get(payload, "data").Some? && IsStoreShape(Get(payload, "data").value)
    ensures o == Fail(MalformedDocument) <==> !payload.JObj? && !payload.JArr?
    ensures o == Fail(DataNotFound) <==>
              (payload.JObj? || payload.JArr?) && !(Get(payload, "data").Some? && Get(payload, "data").value.JObj?)
    ensures o.Fail? && o.error in {MalformedBucket, ItemsNotFound} ==>
              var ms := Get(payload, "data").value.members;
              exists i :: 0 <= i < |ms| && BucketCheck(ms[i].value) == o
                && forall j :: 0 <= j < i ==> BucketCheck(ms[j].value).Pass?
    ensures o != Fail(ItemNotANote)
  {
    if !Truthy(payload) || !TypeofObject(payload) then Fail(MalformedDocument)
    else match Get(payload, "data")
      case Some(JObj(ms)) =>
        assert forall v :: BucketCheck(v).Pass? <==> IsBucketShape(v);
        FirstBucketFailure(ms)
      case _ => Fail(DataNotFound)
  }

  /** The two validations differ only on an array `data`. */
  lemma ValidateAgreesUnlessArrayData(payload: Json)
    requires !(Get(payload, "data").Some? && Get(payload, "data").value.JArr?)
    ensures ValidateAsWritten(payload) == Validate(payload)
  {
  }

  /** The document `{"data": []}` passes `validateImportedPayload`, although
      its `data` is not a store. */
  lemma ArrayDataPassesAsWritten()
    ensures var payload := JObj([Member("data", JArr([]))]);
      && ValidateAsWritten(payload) == Pass
      && !IsStoreShape(Get(payload, "data").value)
      && Validate(payload) == Fail(DataNotFound)
  {
    var payload := JObj([Member("data", JArr([]))]);
    assert Get(payload, "data") == Some(JArr([]));
  }

  /** A backup whose `data` is the empty object is accepted, and importing
      it leaves an empty store, whatever was stored before. */
  lemma EmptyDataAccepted(doc: Document)
    ensures var payload := JObj([Member("data", JObj([]))]);
      && ValidateAsWritten(payload) == Pass
      && Validate(payload) == Pass
      && ImportPayload(doc, payload) == ImportResult(Saved(map[]), Pass)
  {
    var payload := JObj([Member("data", JObj([]))]);
    assert Get(payload, "data") == Some(JObj([]));
  }

  // ----- Notes as JSON -----

  /** A note as `JSON.stringify` writes it: its five fields, in the order the
      save handler builds them. */
  function EncodeNote(n: Note): Json {
    JObj([Member("id", JStr(n.id)), Member("title", JStr(n.title)), Member("body", JStr(n.body)),
          Member("createdAt", JNum(n.createdAt)), Member("updatedAt", JNum(n.updatedAt))])
  }

  /** The string `j[key]`, when it is one. */
  function GetStr(j: Json, key: string): Option<string> {
    match Get(j, key)
    case Some(JStr(v)) => Some(v)
    case _ => None
  }

  /** The number `j[key]`, when it is one. */
  function GetNum(j: Json, key: string): Option<int> {
    match Get(j, key)
    case Some(JNum(v)) => Some(v)
    case _ => None
  }

  /** Reads a note record back; `None` when a field is missing or of the
      wrong kind. */
  function DecodeNote(j: Json): Option<Note> {
    var id := GetStr(j, "id");
    var title := GetStr(j, "title");
    var body := GetStr(j, "body");
    var createdAt := GetNum(j, "createdAt");
    var updatedAt := GetNum(j, "updatedAt");
    if id.Some? && title.Some? && body.Some? && createdAt.Some? && updatedAt.Some? then
      Some(Note(id.value, title.value, body.value, createdAt.value, updatedAt.value))
    else None
  }

  lemma NoteTextFields(n: Note)
    ensures var j := EncodeNote(n);
      GetStr(j, "id") == Some(n.id) && GetStr(j, "title") == Some(n.title) && GetStr(j, "body") == Some(n.body)
  {
    var j := EncodeNote(n);
    assert GetStr(j, "id") == Some(n.id) by {
      LookupFirst(j.members, "id", 0);
    }
    assert GetStr(j, "title") == Some(n.title) by {
      assert j.members[0].key != "title";
      LookupFirst(j.members, "title", 1);
    }
    assert GetStr(j, "body") == Some(n.body) by {
      assert j.members[0].key != "body" && j.members[1].key != "body";
      LookupFirst(j.members, "body", 2);
    }
  }

  lemma NoteTimeFields(n: Note)
    ensures var j := EncodeNote(n);
      GetNum(j, "createdAt") == Some(n.createdAt) && GetNum(j, "updatedAt") == Some(n.updatedAt)
  {
    var j := EncodeNote(n);
    assert GetNum(j, "createdAt") == Some(n.createdAt) by {
      assert j.members[0].key != "createdAt" && j.members[1].key != "createdAt";
      assert j.members[2].key != "createdAt";
      LookupFirst(j.members, "createdAt", 3);
    }
    assert GetNum(j, "updatedAt") == Some(n.updatedAt) by {
      assert j.members[0].key != "updatedAt" && j.members[1].key != "updatedAt";
      assert j.members[2].key != "updatedAt" && j.members[3].key != "updatedAt";
      LookupFirst(j.members, "updatedAt", 4);
    }
  }

  /** A note written out reads back as the same note. */
  lemma NoteRoundTrip(n: Note)
    ensures DecodeNote(EncodeNote(n)) == Some(n)
  {
    NoteTextFields(n);
    NoteTimeFields(n);
  }

  function EncodeItems(items: seq<Note>): (es: seq<Json>)
    ensures |es| == |items|
  {
    if |items| == 0 then [] else [EncodeNote(items[0])] + EncodeItems(items[1..])
  }

  /** Reads a bucket's items back as notes, all or nothing. */
  function DecodeItems(es: seq<Json>): Option<seq<Note>> {
    if |es| == 0 then Some([])
    else
      var first := DecodeNote(es[0]);
      var rest := DecodeItems(es[1..]);
      if first.Some? && rest.Some? then Some([first.value] + rest.value) else None
  }

  /** The items decode exactly when each one is a note record, and then
      each decodes to the note in the same position. */
  lemma {:induction false} DecodeItemsMeaning(es: seq<Json>)
    ensures var r := DecodeItems(es);
      && (r.Some? ==> |r.value| == |es| && forall i :: 0 <= i < |es| ==> DecodeNote(es[i]) == Some(r.value[i]))
      && (r.None? ==> exists i :: 0 <= i < |es| && DecodeNote(es[i]).None?)
  {
    if |es| > 0 {
      var rest := es[1..];
      DecodeItemsMeaning(rest);
      assert forall i :: 1 <= i < |es| ==> es[i] == rest[i - 1];
      if DecodeNote(es[0]).Some? && DecodeItems(rest).None? {
        var i :| 0 <= i < |rest| && DecodeNote(rest[i]).None?;
        assert DecodeNote(es[i + 1]).None?;
      }
    }
  }

  lemma {:induction false} ItemsRoundTrip(items: seq<Note>)
    ensures DecodeItems(EncodeItems(items)) == Some(items)
    decreases |items|
  {
    if |items| > 0 {
      var es := EncodeItems(items);
      assert DecodeNote(es[0]) == Some(items[0]) by {
        assert es[0] == EncodeNote(items[0]);
        NoteRoundTrip(items[0]);
      }
      assert DecodeItems(es[1..]) == Some(items[1..]) by {
        assert es[1..] == EncodeItems(items[1..]);
        ItemsRoundTrip(items[1..]);
      }
      assert [items[0]] + items[1..] == items;
    }
  }

  /** The `items` array of a bucket-shaped value. */
  function BucketItems(v: Json): seq<Json>
    requires IsBucketShape(v)
  {
    Lookup(v.members, "items").value.elems
  }

  function EncodeBucket(b: Bucket): Json {
    JObj([Member("items", JArr(EncodeItems(b.items)))])
  }

  /** The store a validated `data` object denotes, when every item in it is a
      note record: one bucket per member, under the member's key. */
  function DecodeStore(ms: seq<Member>): Option<Store>
    requires forall i :: 0 <= i < |ms| ==> IsBucketShape(ms[i].value)
  {
    if |ms| == 0 then Some(map[])
    else
      var items := DecodeItems(BucketItems(ms[0].value));
      assert forall i :: 1 <= i < |ms| ==> ms[i] == ms[1..][i - 1];
      var rest := DecodeStore(ms[1..]);
      if items.Some? && rest.Some? then Some(rest.value[ms[0].key := Bucket(items.value)])
      else None
  }

  /** A decoded store has one bucket per member key and no other. */
  lemma {:induction false} DecodeStoreKeys(ms: seq<Member>)
    requires forall i :: 0 <= i < |ms| ==> IsBucketShape(ms[i].value)
    ensures DecodeStore(ms).Some? ==> DecodeStore(ms).value.Keys == Keys(ms)
  {
    if |ms| > 0 && DecodeStore(ms).Some? {
      DecodeStoreCons(ms);
      DecodeStoreKeys(ms[1..]);
      assert Keys(ms) == {ms[0].key} + Keys(ms[1..]);
    }
  }

  lemma DecodeStoreCons(ms: seq<Member>)
    requires forall k :: 0 <= k < |ms| ==> IsBucketShape(ms[k].value)
    requires |ms| > 0 && DecodeStore(ms).Some?
    ensures forall k :: 0 <= k < |ms[1..]| ==> IsBucketShape(ms[1..][k].value)
    ensures DecodeItems(BucketItems(ms[0].value)).Some? && DecodeStore(ms[1..]).Some?
    ensures DecodeStore(ms).value
            == DecodeStore(ms[1..]).value[ms[0].key := Bucket(DecodeItems(BucketItems(ms[0].value)).value)]
  {
    forall k | 0 <= k < |ms[1..]|
      ensures IsBucketShape(ms[1..][k].value)
    {
      assert ms[1..][k] == ms[k + 1];
    }
  }

  lemma DistinctKeysTail(ms: seq<Member>)
    requires |ms| > 0 && DistinctKeys(ms)
    ensures DistinctKeys(ms[1..])
    ensures forall k :: 0 <= k < |ms[1..]| ==> ms[1..][k].key != ms[0].key
  {
    assert forall k :: 0 <= k < |ms[1..]| ==> ms[1..][k] == ms[k + 1];
  }

  /** The bucket a member decodes to lies under the member's key, when no
      other member shares that key. */
  lemma {:induction false} DecodeStoreAt(ms: seq<Member>, i: nat)
    requires forall k :: 0 <= k < |ms| ==> IsBucketShape(ms[k].value)
    requires DistinctKeys(ms) && DecodeStore(ms).Some?
    requires i < |ms|
    ensures ms[i].key in DecodeStore(ms).value
    ensures DecodeItems(BucketItems(ms[i].value)) == Some(DecodeStore(ms).value[ms[i].key].items)
  {
    DecodeStoreCons(ms);
    var rest := ms[1..];
    var store := DecodeStore(ms).value;
    var tail := DecodeStore(rest).value;
    var first := DecodeItems(BucketItems(ms[0].value)).value;
    assert store == tail[ms[0].key := Bucket(first)];
    if i == 0 {
      assert store[ms[0].key].items == first;
    } else {
      DistinctKeysTail(ms);
      DecodeStoreAt(rest, i - 1);
      assert ms[i] == rest[i - 1];
      assert ms[i].key != ms[0].key;
      assert store[ms[i].key] == tail[rest[i - 1].key];
    }
  }

  /** Each decoded bucket holds its member's items, decoded, in order. */
  lemma DecodeStoreItems(ms: seq<Member>)
    requires forall i :: 0 <= i < |ms| ==> IsBucketShape(ms[i].value)
    requires DistinctKeys(ms) && DecodeStore(ms).Some?
    ensures forall i :: 0 <= i < |ms| ==>
              (ms[i].key in DecodeStore(ms).value &&
               DecodeItems(BucketItems(ms[i].value)) == Some(DecodeStore(ms).value[ms[i].key].items))
  {
    forall i | 0 <= i < |ms|
      ensures ms[i].key in DecodeStore(ms).value &&
              DecodeItems(BucketItems(ms[i].value)) == Some(DecodeStore(ms).value[ms[i].key].items)
    {
      DecodeStoreAt(ms, i);
    }
  }

  // ----- Import -----

  /** The outcome of an import: the document afterwards and the verdict. */
  datatype ImportResult = ImportResult(doc: Document, outcome: Outcome<ImportError>)

  /** The import step: validate the payload; on success write `data` over
      the whole store (a replacement, not a merge); on failure leave the
      document as it was and report the first violation. */
  function ImportPayload(doc: Document, payload: Json): (r: ImportResult)
    ensures r.outcome.Fail? ==> r.doc == doc
    ensures Validate(payload).Fail? ==> r.outcome == Validate(payload)
    ensures r.outcome.Pass? ==> Validate(payload).Pass?
    ensures Validate(payload).Pass? ==>
              (r.outcome.Pass? <==> DecodeStore(Get(payload, "data").value.members).Some?)
    ensures r.outcome == Fail(ItemNotANote) ==>
              Validate(payload).Pass? && DecodeStore(Get(payload, "data").value.members).None?
    ensures r.outcome.Pass? ==> r.doc == SaveAll(DecodeStore(Get(payload, "data").value.members).value)
    ensures r.outcome.Pass? ==> r.doc.Saved? && LoadAll(r.doc).Keys == Keys(Get(payload, "data").value.members)
    ensures r.outcome.Pass? && DistinctKeys(Get(payload, "data").value.members) ==>
              var ms := Get(payload, "data").value.members;
              forall i :: 0 <= i < |ms| ==>
                DecodeItems(BucketItems(ms[i].value)) == Some(GetItems(LoadAll(r.doc), ms[i].key))
  {
    var v := Validate(payload);
    if v.Fail? then ImportResult(doc, v)
    else
      var ms := Get(payload, "data").value.members;
      match DecodeStore(ms)
      case None => ImportResult(doc, Fail(ItemNotANote))
      case Some(s) =>
        DecodeStoreKeys(ms);
        if DistinctKeys(ms) then DecodeStoreItems(ms); ImportResult(SaveAll(s), Pass)
        else ImportResult(SaveAll(s), Pass)
  }

  /** The import runs the corrected validation: a backup whose `data` is an
      array is refused and the document is left as it was. */
  lemma ImportRefusesArrayData(doc: Document)
    ensures ImportPayload(doc, JObj([Member("data", JArr([]))])) == ImportResult(doc, Fail(DataNotFound))
  {
    ArrayDataPassesAsWritten();
  }

  // ----- Export -----

  /** The backup document `exportJson` writes around the store's data. */
  function ExportPayload(data: Json, exportedAt: string): Json {
    JObj([Member("app", JStr("StudyLog")), Member("version", JNum(1)),
          Member("exportedAt", JStr(exportedAt)), Member("storageKey", JStr(StorageKey)),
          Member("data", data)])
  }

  const BackupPrefix: string := "study-log-backup-"
  const BackupSuffix: string := ".json"

  /** The date a backup file name carries, if it is one. */
  function BackupNameDate(name: string): Option<CivilDate> {
    if |name| < |BackupPrefix| + |BackupSuffix| then None
    else if name[..|BackupPrefix|] != BackupPrefix || name[|name| - |BackupSuffix|..] != BackupSuffix then None
    else ParseDateKey(name[|BackupPrefix|..|name| - |BackupSuffix|])
  }

  /** The file name the export is offered under, `study-log-backup-`, then
      today's key, then `.json`: it carries today's date and no other. */
  function BackupFileName(today: CivilDate): (name: string)
    requires Valid(today)
    ensures BackupNameDate(name) == Some(today)
  {
    var key := TodayKey(today);
    BackupNameOfKey(key);
    BackupPrefix + key + BackupSuffix
  }

  lemma BackupNameOfKey(key: string)
    ensures BackupNameDate(BackupPrefix + key + BackupSuffix) == ParseDateKey(key)
  {
    var name := BackupPrefix + key + BackupSuffix;
    assert name[..|BackupPrefix|] == BackupPrefix;
    assert name[|name| - |BackupSuffix|..] == BackupSuffix;
    assert name[|BackupPrefix|..|name| - |BackupSuffix|] == key;
  }

  /** The part of `s` on the keys `ks`. */
  function Restrict(s: Store, ks: set<string>): Store {
    map k | k in ks && k in s :: s[k]
  }

  lemma RestrictAdd(s: Store, ks: set<string>, k: string)
    requires k in s
    ensures Restrict(s, ks + {k}) == Restrict(s, ks)[k := s[k]]
  {
  }

  /** The exported members so far hold exactly the buckets of the keys done. */
  ghost predicate ExportedSoFar(s: Store, done: set<string>, ms: seq<Member>) {
    && done <= s.Keys
    && (forall i :: 0 <= i < |ms| ==> ms[i].key in done)
    && DistinctKeys(ms)
    && (forall i :: 0 <= i < |ms| ==> IsBucketShape(ms[i].value))
    && DecodeStore(ms) == Some(Restrict(s, done))
  }

  /** A bucket written out has the shape of a bucket and reads back as its
      items. */
  lemma BucketRoundTrip(b: Bucket)
    ensures IsBucketShape(EncodeBucket(b))
    ensures DecodeItems(BucketItems(EncodeBucket(b))) == Some(b.items)
  {
    ItemsRoundTrip(b.items);
  }

  lemma DecodeStorePrepend(m: Member, ms: seq<Member>)
    requires IsBucketShape(m.value) && DecodeItems(BucketItems(m.value)).Some?
    requires forall i :: 0 <= i < |ms| ==> IsBucketShape(ms[i].value)
    requires DecodeStore(ms).Some?
    ensures forall i :: 0 <= i < |ms| + 1 ==> IsBucketShape(([m] + ms)[i].value)
    ensures DecodeStore([m] + ms) == Some(DecodeStore(ms).value[m.key := Bucket(DecodeItems(BucketItems(m.value)).value)])
  {
    var all := [m] + ms;
    assert all[0] == m && all[1..] == ms;
    forall i | 0 <= i < |all|
      ensures IsBucketShape(all[i].value)
    {
      if i > 0 {
        assert all[i] == ms[i - 1];
      }
    }
    var items := DecodeItems(BucketItems(all[0].value));
    var rest := DecodeStore(all[1..]);
    assert items.Some? && rest.Some?;
    assert DecodeStore(all) == Some(rest.value[all[0].key := Bucket(items.value)]);
  }

  lemma ExportStepDecode(s: Store, done: set<string>, ms: seq<Member>, k: string)
    requires k in s
    requires forall i :: 0 <= i < |ms| ==> IsBucketShape(ms[i].value)
    requires DecodeStore(ms) == Some(Restrict(s, done))
    ensures forall i :: 0 <= i < |ms| + 1 ==> IsBucketShape(([Member(k, EncodeBucket(s[k]))] + ms)[i].value)
    ensures DecodeStore([Member(k, EncodeBucket(s[k]))] + ms) == Some(Restrict(s, done + {k}))
  {
    var m := Member(k, EncodeBucket(s[k]));
    BucketRoundTrip(s[k]);
    DecodeStorePrepend(m, ms);
    RestrictAdd(s, done, k);
    assert Bucket(s[k].items) == s[k];
  }

  lemma ExportStepKeys(done: set<string>, ms: seq<Member>, m: Member)
    requires forall i :: 0 <= i < |ms| ==> ms[i].key in done
    requires DistinctKeys(ms) && m.key !in done
    ensures forall i :: 0 <= i < |[m] + ms| ==> ([m] + ms)[i].key in done + {m.key}
    ensures DistinctKeys([m] + ms)
  {
    assert forall i :: 1 <= i < |[m] + ms| ==> ([m] + ms)[i] == ms[i - 1];
  }

  /** One more bucket in front of the exported members. */
  lemma ExportStep(s: Store, done: set<string>, ms: seq<Member>, k: string)
    requires ExportedSoFar(s, done, ms)
    requires k in s && k !in done
    ensures ExportedSoFar(s, done + {k}, [Member(k, EncodeBucket(s[k]))] + ms)
  {
    var m := Member(k, EncodeBucket(s[k]));
    ExportStepDecode(s, done, ms, k);
    ExportStepKeys(done, ms, m);
  }

  /** The store as a `data` object: one member per date key, each holding its
      bucket's items. Object key order is not modelled, so the members come
      in whatever order the keys are picked. */
  method ExportData(s: Store) returns (data: Json)
    ensures IsStoreShape(data) && DistinctKeys(data.members)
    ensures DecodeStore(data.members) == Some(s)
  {
    var done: set<string> := {};
    var ms: seq<Member> := [];
    while done != s.Keys
      invariant done <= s.Keys
      invariant ExportedSoFar(s, done, ms)
      decreases s.Keys - done
    {
      assert s.Keys - done != {};
      var k :| k in s.Keys - done;
      ExportStep(s, done, ms, k);
      ms := [Member(k, EncodeBucket(s[k]))] + ms;
      done := done + {k};
    }
    assert Restrict(s, done) == s;
    data := JObj(ms);
  }

  lemma ExportPayloadData(data: Json, exportedAt: string)
    ensures Get(ExportPayload(data, exportedAt), "data") == Some(data)
  {
    LookupFirst(ExportPayload(data, exportedAt).members, "data", 4);
  }

  /** `exportJson`: the loaded store wrapped in the backup document. Importing
      that document back, over any document, restores exactly this store. */
  method ExportJson(doc: Document, exportedAt: string) returns (payload: Json)
    ensures Validate(payload).Pass?
    ensures forall before :: ImportPayload(before, payload) == ImportResult(SaveAll(LoadAll(doc)), Pass)
  {
    var data := ExportData(LoadAll(doc));
    payload := ExportPayload(data, exportedAt);
    ExportPayloadData(data, exportedAt);
  }
}

=== FILE: calendar.dfy ===
/** Civil (proleptic Gregorian) calendar dates and whole-day arithmetic on them.

    The client obtains dates from a JavaScript `Date` pinned to 12:00 local
    time, so that stepping by calendar days never crosses a day boundary
    because of a daylight-saving shift. This module states the arithmetic
    the pinning is there to guarantee: exact steps of one calendar day,
    with no milliseconds and no time zone involved. */
module Calendar {

  /** A local calendar day: `getFullYear()`, the 1-based `getMonth() + 1`
      and `getDate()`. */
  datatype CivilDate = CivilDate(year: int, month: int, day: int)

  predicate IsLeapYear(y: int) {
    y % 4 == 0 && (y % 100 != 0 || y % 400 == 0)
  }

  function DaysInYear(y: int): int {
    if IsLeapYear(y) then 366 else 365
  }

  function DaysInMonth(y: int, m: int): (n: int)
    requires 1 <= m <= 12
    ensures 28 <= n <= 31
  {
    if m == 2 then (if IsLeapYear(y) then 29 else 28)
    else if m == 4 || m == 6 || m == 9 || m == 11 then 30
    else 31
  }

  /** A date that exists on the calendar. */
  predicate Valid(d: CivilDate) {
    1 <= d.month <= 12 && 1 <= d.day <= DaysInMonth(d.year, d.month)
  }

  /** The day before `d` (what `setDate(getDate() - 1)` does at noon). */
  function PrevDay(d: CivilDate): (r: CivilDate)
    requires Valid(d)
    ensures Valid(r)
  {
    if d.day > 1 then CivilDate(d.year, d.month, d.day - 1)
    else if d.month > 1 then CivilDate(d.year, d.month - 1, DaysInMonth(d.year, d.month - 1))
    else CivilDate(d.year - 1, 12, 31)
  }

  /** The day after `d` (what `setDate(getDate() + 1)` does at noon). */
  function NextDay(d: CivilDate): (r: CivilDate)
    requires Valid(d)
    ensures Valid(r)
  {
    if d.day < DaysInMonth(d.year, d.month) then CivilDate(d.year, d.month, d.day + 1)
    else if d.month < 12 then CivilDate(d.year, d.month + 1, 1)
    else CivilDate(d.year + 1, 1, 1)
  }

  /** `d` moved by `k` whole calendar days: back for negative `k`, forward
      for positive `k`, as `setDate(getDate() + k)` normalises an
      out-of-range day of the month into neighbouring months and years. */
  function ShiftDays(d: CivilDate, k: int): (r: CivilDate)
    requires Valid(d)
    ensures Valid(r)
    decreases if k < 0 then -k else k
  {
    if k == 0 then d
    else if k < 0 then ShiftDays(PrevDay(d), k + 1)
    else ShiftDays(NextDay(d), k - 1)
  }

  // ----- An independent day count -----

  /** Days from 1 January of year 0 to 1 January of year `y` (negative before year 0). */
  function DaysBeforeYear(y: int): int
    decreases if y < 0 then -y else y
  {
    if y == 0 then 0
    else if y > 0 then DaysBeforeYear(y - 1) + DaysInYear(y - 1)
    else DaysBeforeYear(y + 1) - DaysInYear(y)
  }

  /** Days from 1 January to the first day of month `m` of year `y`. */
  function DaysBeforeMonth(y: int, m: int): int
    requires 1 <= m <= 12
  {
    var base :=
      if m == 1 then 0 else if m == 2 then 31 else if m == 3 then 59
      else if m == 4 then 90 else if m == 5 then 120 else if m == 6 then 151
      else if m == 7 then 181 else if m == 8 then 212 else if m == 9 then 243
      else if m == 10 then 273 else if m == 11 then 304 else 334;
    base + (if m > 2 && IsLeapYear(y) then 1 else 0)
  }

  /** The number of the day `d` in a single running count of days. */
  function DayNumber(d: CivilDate): int
    requires Valid(d)
  {
    DaysBeforeYear(d.year) + DaysBeforeMonth(d.year, d.month) + d.day - 1
  }

  lemma YearStep(y: int)
    ensures DaysBeforeYear(y + 1) == DaysBeforeYear(y) + DaysInYear(y)
  {
  }

  lemma MonthStep(y: int, m: int)
    requires 1 <= m < 12
    ensures DaysBeforeMonth(y, m + 1) == DaysBeforeMonth(y, m) + DaysInMonth(y, m)
  {
  }

  /** `PrevDay` is exactly one day earlier in the running count. */
  lemma PrevDayNumber(d: CivilDate)
    requires Valid(d)
    ensures DayNumber(PrevDay(d)) == DayNumber(d) - 1
  {
    var p := PrevDay(d);
    if d.day > 1 {
      assert p == CivilDate(d.year, d.month, d.day - 1);
    } else if d.month > 1 {
      assert p == CivilDate(d.year, d.month - 1, DaysInMonth(d.year, d.month - 1));
      MonthStep(d.year, d.month - 1);
    } else {
      assert p == CivilDate(d.year - 1, 12, 31);
      assert DaysBeforeMonth(d.year - 1, 12) + 31 == DaysInYear(d.year - 1);
      YearStep(d.year - 1);
    }
  }

  /** `NextDay` is exactly one day later in the running count. */
  lemma NextDayNumber(d: CivilDate)
    requires Valid(d)
    ensures DayNumber(NextDay(d)) == DayNumber(d) + 1
  {
    if d.day == DaysInMonth(d.year, d.month) && d.month < 12 {
      MonthStep(d.year, d.month);
    } else if d.day == DaysInMonth(d.year, d.month) {
      YearStep(d.year);
    }
  }

  /** Shifting by `k` calendar days moves exactly `k` days in the running count. */
  lemma {:induction false} ShiftDaysNumber(d: CivilDate, k: int)
    requires Valid(d)
    ensures DayNumber(ShiftDays(d, k)) == DayNumber(d) + k
    decreases if k < 0 then -k else k
  {
    if k < 0 {
      PrevDayNumber(d);
      ShiftDaysNumber(PrevDay(d), k + 1);
    } else if k > 0 {
      NextDayNumber(d);
      ShiftDaysNumber(NextDay(d), k - 1);
    }
  }

  lemma {:induction false} YearsIncrease(y1: int, y2: int)
    requires y1 < y2
    ensures DaysBeforeYear(y1) + DaysInYear(y1) <= DaysBeforeYear(y2)
    decreases y2 - y1
  {
    YearStep(y1);
    if y1 + 1 < y2 {
      YearsIncrease(y1 + 1, y2);
      YearStep(y1 + 1);
    }
  }

  /** The position of a valid date inside its year lies within the year. */
  lemma DayOfYearBounds(d: CivilDate)
    requires Valid(d)
    ensures 0 <= DaysBeforeMonth(d.year, d.month) + d.day - 1 < DaysInYear(d.year)
  {
  }

  lemma MonthsIncrease(y: int, m1: int, m2: int)
    requires 1 <= m1 < m2 <= 12
    ensures DaysBeforeMonth(y, m1) + DaysInMonth(y, m1) <= DaysBeforeMonth(y, m2)
  {
  }

  /** Two valid dates with the same day number are the same date: the
      running count names every calendar day exactly once. */
  lemma DayNumberInjective(a: CivilDate, b: CivilDate)
    requires Valid(a) && Valid(b)
    requires DayNumber(a) == DayNumber(b)
    ensures a == b
  {
    DayOfYearBounds(a);
    DayOfYearBounds(b);
    if a.year < b.year {
      YearsIncrease(a.year, b.year);
      assert false;
    } else if b.year < a.year {
      YearsIncrease(b.year, a.year);
      assert false;
    }
    if a.month < b.month {
      MonthsIncrease(a.year, a.month, b.month);
      assert false;
    } else if b.month < a.month {
      MonthsIncrease(a.year, b.month, a.month);
      assert false;
    }
  }

  /** Shifting twice is shifting once by the sum. */
  lemma ShiftDaysCompose(d: CivilDate, a: int, b: int)
    requires Valid(d)
    ensures ShiftDays(ShiftDays(d, a), b) == ShiftDays(d, a + b)
  {
    ShiftDaysNumber(d, a);
    ShiftDaysNumber(ShiftDays(d, a), b);
    ShiftDaysNumber(d, a + b);
    DayNumberInjective(ShiftDays(ShiftDays(d, a), b), ShiftDays(d, a + b));
  }
}

=== FILE: date_key.dfy ===
/** Date keys: the strings under which the store files each day's notes
    (`formatDateKey`, `todayKey`, `dateKeyMinus` in client/main.js).

    "Now" is not read from a clock: the caller passes today's local civil
    date, which is what `new Date()` pinned to 12:00 denotes. */
module DateKey {
  import opened Wrappers
  import opened Text
  import opened Calendar

  /** `String(n).padStart(2, "0")`. */
  function TwoDigits(n: nat): string {
    PadStart(NatToDecimal(n), 2, '0')
  }

  lemma TwoDigitsValue(n: nat)
    requires n < 100
    ensures |TwoDigits(n)| == 2 && AllDigits(TwoDigits(n)) && DigitsValue(TwoDigits(n)) == n
  {
    var s := NatToDecimal(n);
    var t := TwoDigits(n);
    DigitsValueOfDecimal(n);
    if n < 10 {
      assert t == ['0'] + s;
      assert t[..1] == "0";
    } else {
      assert |s| == 2 by {
        assert s == NatToDecimal(n / 10) + [DigitChar(n % 10)];
      }
      assert t == s;
    }
  }

  /** Where the pieces of `y-mm-dd` sit in the joined string. */
  lemma KeyLayout(y: string, m: string, dd: string)
    requires |m| == 2 && |dd| == 2
    ensures var key := y + "-" + m + "-" + dd;
      && |key| == |y| + 6 && key[..|key| - 6] == y
      && key[|key| - 6] == '-' && key[|key| - 3] == '-'
      && key[|key| - 5..|key| - 3] == m && key[|key| - 2..] == dd
  {
    var key := y + "-" + m + "-" + dd;
    assert key[..|y|] == y;
    assert key[|y| + 1..|y| + 3] == m;
    assert key[|y| + 4..] == dd;
  }

  /** The text `formatDateKey` builds: `String(y)`, then the month and the
      day padded to two digits, joined by '-'. */
  function KeyText(d: CivilDate): string
    requires Valid(d)
  {
    IntToDecimal(d.year) + "-" + TwoDigits(d.month) + "-" + TwoDigits(d.day)
  }

  /** The month and the day always occupy exactly two digits at the end of
      the key, separated by '-', and the year is everything before them. */
  lemma KeyTextShape(d: CivilDate)
    requires Valid(d)
    ensures var key := KeyText(d);
      && |key| >= 7 && key[|key| - 6] == '-' && key[|key| - 3] == '-'
      && AllDigits(key[|key| - 5..|key| - 3]) && DigitsValue(key[|key| - 5..|key| - 3]) == d.month
      && AllDigits(key[|key| - 2..]) && DigitsValue(key[|key| - 2..]) == d.day
      && ParseDecimal(key[..|key| - 6]) == Some(d.year)
  {
    var y := IntToDecimal(d.year);
    var m := TwoDigits(d.month);
    var dd := TwoDigits(d.day);
    IntToDecimalRoundTrip(d.year);
    TwoDigitsValue(d.month);
    TwoDigitsValue(d.day);
    KeyLayout(y, m, dd);
  }

  /** Text made only of digits and '-', the alphabet of every date key. */
  predicate IsKeyText(s: string) {
    forall k :: 0 <= k < |s| ==> IsDigit(s[k]) || s[k] == '-'
  }

  lemma KeyTextConcat(a: string, b: string)
    requires IsKeyText(a) && IsKeyText(b)
    ensures IsKeyText(a + b)
  {
    forall k | 0 <= k < |a + b|
      ensures IsDigit((a + b)[k]) || (a + b)[k] == '-'
    {
      if k >= |a| {
        assert (a + b)[k] == b[k - |a|];
      }
    }
  }

  lemma KeyTextJoin(y: string, m: string, dd: string)
    requires IsKeyText(y) && AllDigits(m) && AllDigits(dd)
    ensures IsKeyText(y + "-" + m + "-" + dd)
  {
    KeyTextConcat(y, "-");
    KeyTextConcat(y + "-", m);
    KeyTextConcat(y + "-" + m, "-");
    KeyTextConcat(y + "-" + m + "-", dd);
  }

  lemma KeyTextAlphabet(d: CivilDate)
    requires Valid(d)
    ensures IsKeyText(KeyText(d))
  {
    IntToDecimalChars(d.year);
    TwoDigitsValue(d.month);
    TwoDigitsValue(d.day);
    KeyTextJoin(IntToDecimal(d.year), TwoDigits(d.month), TwoDigits(d.day));
  }

  /** Reads a date key back into the date it names; `None` for any string
      that is not the key of a valid date. */
  function ParseDateKey(key: string): (r: Option<CivilDate>)
    ensures r.Some? ==> Valid(r.value)
  {
    if |key| < 7 || key[|key| - 6] != '-' || key[|key| - 3] != '-' then None
    else if !AllDigits(key[|key| - 5..|key| - 3]) || !AllDigits(key[|key| - 2..]) then None
    else match ParseDecimal(key[..|key| - 6])
      case None => None
      case Some(y) =>
        var d := CivilDate(y, DigitsValue(key[|key| - 5..|key| - 3]), DigitsValue(key[|key| - 2..]));
        if Valid(d) then Some(d) else None
  }

  /** The year field of a key: everything before the final `-mm-dd`. */
  function YearField(key: string): string {
    if |key| >= 6 then key[..|key| - 6] else key
  }

  /** A four-digit number is written with four characters. */
  lemma FourDigitYear(n: nat)
    requires 1000 <= n <= 9999
    ensures |NatToDecimal(n)| == 4
  {
    assert NatToDecimal(n) == NatToDecimal(n / 10) + [DigitChar(n % 10)];
    assert NatToDecimal(n / 10) == NatToDecimal(n / 100) + [DigitChar(n / 10 % 10)];
    assert NatToDecimal(n / 100) == NatToDecimal(n / 1000) + [DigitChar(n / 100 % 10)];
  }

  /** The year field of a key is the year written as `String(y)` writes it. */
  lemma KeyTextYear(d: CivilDate)
    requires Valid(d)
    ensures YearField(KeyText(d)) == IntToDecimal(d.year)
    ensures IsCanonicalDecimal(YearField(KeyText(d)))
    ensures 1000 <= d.year <= 9999 ==> |KeyText(d)| == 10
  {
    var y := IntToDecimal(d.year);
    TwoDigitsValue(d.month);
    TwoDigitsValue(d.day);
    KeyLayout(y, TwoDigits(d.month), TwoDigits(d.day));
    IntToDecimalRoundTrip(d.year);
    CanonicalDecimal(y);
    if 1000 <= d.year <= 9999 {
      FourDigitYear(d.year);
    }
  }

  /** `formatDateKey`: the key of date `d`. It reads back as `d` (so no two
      dates share a key), it is written with digits and '-' only, and its
      year field carries no leading zero, so a year from 1000 to 9999 gives
      exactly the ten characters `YYYY-MM-DD`. */
  function FormatDateKey(d: CivilDate): (key: string)
    requires Valid(d)
    ensures ParseDateKey(key) == Some(d)
    ensures IsKeyText(key)
    ensures IsCanonicalDecimal(YearField(key))
    ensures 1000 <= d.year <= 9999 ==> |key| == 10
  {
    KeyTextShape(d);
    KeyTextAlphabet(d);
    KeyTextYear(d);
    KeyText(d)
  }

  /** Two-digit fields with the same value are the same text. */
  lemma TwoDigitFieldUnique(a: string, b: string)
    requires |a| == 2 && |b| == 2 && AllDigits(a) && AllDigits(b)
    requires DigitsValue(a) == DigitsValue(b)
    ensures a == b
  {
    assert a[..1][0] == a[0] && a[..1][..0] == [];
    assert b[..1][0] == b[0] && b[..1][..0] == [];
    assert DigitsValue(a[..1]) == DigitValue(a[0]);
    assert DigitsValue(b[..1]) == DigitValue(b[0]);
    assert DigitsValue(a) == DigitValue(a[0]) * 10 + DigitValue(a[1]);
    assert DigitsValue(b) == DigitValue(b[0]) * 10 + DigitValue(b[1]);
  }

  /** The fields a key that reads as `d` is made of. */
  lemma ParsedKeyFields(d: CivilDate, key: string)
    requires ParseDateKey(key) == Some(d)
    ensures |key| >= 7 && key == YearField(key) + "-" + key[|key| - 5..|key| - 3] + "-" + key[|key| - 2..]
    ensures ParseDecimal(YearField(key)) == Some(d.year)
    ensures AllDigits(key[|key| - 5..|key| - 3]) && DigitsValue(key[|key| - 5..|key| - 3]) == d.month
    ensures AllDigits(key[|key| - 2..]) && DigitsValue(key[|key| - 2..]) == d.day
  {
    assert key == key[..|key| - 6] + "-" + key[|key| - 5..|key| - 3] + "-" + key[|key| - 2..];
  }

  /** A key that reads as `d` and whose year field is canonical is the key
      `formatDateKey` writes for `d`: the contract above leaves no other
      text, so a key such as "02025-03-07" is never produced. */
  lemma CanonicalKeyUnique(d: CivilDate, key: string)
    requires Valid(d) && ParseDateKey(key) == Some(d)
    requires IsCanonicalDecimal(YearField(key))
    ensures key == FormatDateKey(d)
  {
    ParsedKeyFields(d, key);
    var m := key[|key| - 5..|key| - 3];
    var dd := key[|key| - 2..];
    CanonicalDecimal(YearField(key));
    TwoDigitsValue(d.month);
    TwoDigitsValue(d.day);
    TwoDigitFieldUnique(m, TwoDigits(d.month));
    TwoDigitFieldUnique(dd, TwoDigits(d.day));
  }

  /** Different dates are filed under different keys. */
  lemma FormatDateKeyInjective(a: CivilDate, b: CivilDate)
    requires Valid(a) && Valid(b)
    ensures FormatDateKey(a) == FormatDateKey(b) <==> a == b
  {
    if FormatDateKey(a) == FormatDateKey(b) {
      assert ParseDateKey(FormatDateKey(a)) == Some(b);
    }
  }

  /** `todayKey`: the key of today's date. */
  function TodayKey(today: CivilDate): (key: string)
    requires Valid(today)
    ensures ParseDateKey(key) == Some(today)
    ensures IsKeyText(key)
    ensures IsCanonicalDecimal(YearField(key))
    ensures 1000 <= today.year <= 9999 ==> |key| == 10
  {
    FormatDateKey(today)
  }

  /** `dateKeyMinus(days)`: the key of the calendar date exactly `days` days
      before today (after today for a negative count), computed by calendar
      stepping and never by millisecond arithmetic. */
  function DateKeyMinus(today: CivilDate, days: int): (key: string)
    requires Valid(today)
    ensures days == 0 ==> key == TodayKey(today)
    ensures ParseDateKey(key).Some?
    ensures DayNumber(ParseDateKey(key).value) == DayNumber(today) - days
    ensures IsKeyText(key)
  {
    var d := ShiftDays(today, -days);
    assert DayNumber(d) == DayNumber(today) - days by {
      ShiftDaysNumber(today, -days);
    }
    FormatDateKey(d)
  }

  /** The key `dateKeyMinus(days)` yields is the only one naming a valid date
      `days` days before today. */
  lemma DateKeyMinusUnique(today: CivilDate, days: int, d: CivilDate)
    requires Valid(today) && Valid(d)
    requires DayNumber(d) == DayNumber(today) - days
    ensures DateKeyMinus(today, days) == FormatDateKey(d)
  {
    var e := ShiftDays(today, -days);
    ShiftDaysNumber(today, -days);
    DayNumberInjective(d, e);
  }

  /** Different offsets look at different days: two review slots with
      different offsets never share a bucket. */
  lemma DateKeyMinusDistinct(today: CivilDate, a: int, b: int)
    requires Valid(today)
    requires a != b
    ensures DateKeyMinus(today, a) != DateKeyMinus(today, b)
  {
  }

  /** Stepping back `a` days and then `b` more is stepping back `a + b` days. */
  lemma DateKeyMinusAdditive(today: CivilDate, a: int, b: int)
    requires Valid(today)
    ensures DateKeyMinus(ShiftDays(today, -a), b) == DateKeyMinus(today, a + b)
  {
    var back := ShiftDays(today, -a);
    ShiftDaysCompose(today, -a, -b);
    assert ShiftDays(back, -b) == ShiftDays(today, -(a + b));
  }
}

=== FILE: html.dfy ===
/** `escapeHtml`: how note titles and bodies are made safe to splice into
    the page's markup. */
module Html {
  import opened Wrappers

  /** The five characters `escapeHtml` rewrites. */
  predicate IsSpecial(c: char) {
    c == '&' || c == '<' || c == '>' || c == '"' || c == '\''
  }

  /** The entity that replaces one character. */
  function EscapeChar(c: char): string {
    if c == '&' then "&amp;"
    else if c == '<' then "&lt;"
    else if c == '>' then "&gt;"
    else if c == '"' then "&quot;"
    else if c == '\'' then "&#39;"
    else [c]
  }

  /** Markup can neither open nor close a tag or an attribute value in the
      result: no '<', '>', '"' or '\'' survives. */
  predicate MarkupFree(s: string) {
    forall i :: 0 <= i < |s| ==> s[i] != '<' && s[i] != '>' && s[i] != '"' && s[i] != '\''
  }

  /** `escapeHtml(s)`: every special character replaced by its entity, every
      other character kept, in order. */
  function EscapeHtml(s: string): (r: string)
    ensures MarkupFree(r)
    ensures |r| >= |s|
  {
    if |s| == 0 then ""
    else
      var rest := EscapeHtml(s[1..]);
      assert MarkupFree(EscapeChar(s[0]));
      assert forall i :: |EscapeChar(s[0])| <= i < |EscapeChar(s[0]) + rest| ==>
        (EscapeChar(s[0]) + rest)[i] == rest[i - |EscapeChar(s[0])|];
      EscapeChar(s[0]) + rest
  }

  /** The entity `s` starts with, if any: the character it stands for and
      its length. */
  function LeadingEntity(s: string): (r: Option<(char, nat)>)
    ensures r.Some? ==> 1 <= r.value.1 <= |s|
  {
    if |s| == 0 || s[0] != '&' then None
    else if |s| >= 5 && s[..5] == "&amp;" then Some(('&', 5))
    else if |s| >= 4 && s[..4] == "&lt;" then Some(('<', 4))
    else if |s| >= 4 && s[..4] == "&gt;" then Some(('>', 4))
    else if |s| >= 6 && s[..6] == "&quot;" then Some(('"', 6))
    else if |s| >= 5 && s[..5] == "&#39;" then Some(('\'', 5))
    else None
  }

  /** What the browser shows for escaped text: each of the five entities
      read back as its character, everything else as is. */
  function UnescapeHtml(s: string): string {
    if |s| == 0 then ""
    else match LeadingEntity(s)
      case Some((c, n)) => [c] + UnescapeHtml(s[n..])
      case None => [s[0]] + UnescapeHtml(s[1..])
  }

  lemma LeadingEntityOfEscape(c: char, rest: string)
    ensures var e := EscapeChar(c);
      LeadingEntity(e + rest) == (if IsSpecial(c) then Some((c, |e|)) else None)
  {
    var e := EscapeChar(c);
    var s := e + rest;
    assert s[..|e|] == e;
    if c == '<' {
      assert s[1] == 'l';
    } else if c == '>' {
      assert s[1] == 'g';
    } else if c == '"' {
      assert s[1] == 'q';
    } else if c == '\'' {
      assert s[1] == '#';
    } else if !IsSpecial(c) {
      assert s[0] == c;
    }
  }

  lemma UnescapeStep(c: char, rest: string)
    ensures UnescapeHtml(EscapeChar(c) + rest) == [c] + UnescapeHtml(rest)
  {
    var e := EscapeChar(c);
    var s := e + rest;
    LeadingEntityOfEscape(c, rest);
    assert s[|e|..] == rest;
    if !IsSpecial(c) {
      assert s[0] == c;
    }
  }

  /** Escaping loses nothing: the page shows exactly the text the user
      typed. */
  lemma {:induction false} EscapeRoundTrip(s: string)
    ensures UnescapeHtml(EscapeHtml(s)) == s
  {
    if |s| > 0 {
      UnescapeStep(s[0], EscapeHtml(s[1..]));
      EscapeRoundTrip(s[1..]);
      assert [s[0]] + s[1..] == s;
    }
  }

  /** Text without special characters is shown unchanged. */
  lemma {:induction false} EscapePlainText(s: string)
    requires forall i :: 0 <= i < |s| ==> !IsSpecial(s[i])
    ensures EscapeHtml(s) == s
  {
    if |s| > 0 {
      EscapePlainText(s[1..]);
      assert [s[0]] + s[1..] == s;
    }
  }

  /** Two texts that differ are shown differently. */
  lemma EscapeInjective(a: string, b: string)
    requires EscapeHtml(a) == EscapeHtml(b)
    ensures a == b
  {
    EscapeRoundTrip(a);
    EscapeRoundTrip(b);
  }
}

=== FILE: json.dfy ===
/** JSON values as `JSON.parse` hands them to the client, and the few
    JavaScript operators the client applies to them: property reads,
    truthiness, `typeof … === "object"` and `Object.entries`. */
module Json {
  import opened Wrappers
  import opened Text

  /** A parsed JSON value. Numbers are integers (the store only holds
      integral timestamps and version numbers). An object's members are
      listed in `Object.entries` order, each key once, as `JSON.parse`
      builds them. */
  datatype Json =
    | JNull
    | JBool(b: bool)
    | JNum(n: int)
    | JStr(s: string)
    | JArr(elems: seq<Json>)
    | JObj(members: seq<Member>)

  datatype Member = Member(key: string, value: Json)

  /** The value of the first member named `key`. */
  function Lookup(ms: seq<Member>, key: string): (r: Option<Json>)
    ensures r.Some? <==> exists i :: 0 <= i < |ms| && ms[i].key == key
  {
    if |ms| == 0 then None
    else if ms[0].key == key then Some(ms[0].value)
    else Lookup(ms[1..], key)
  }

  /** The first member named `key` is the one `Lookup` finds. */
  lemma {:induction false} LookupFirst(ms: seq<Member>, key: string, i: nat)
    requires i < |ms| && ms[i].key == key
    requires forall j :: 0 <= j < i ==> ms[j].key != key
    ensures Lookup(ms, key) == Some(ms[i].value)
  {
    if i > 0 {
      LookupFirst(ms[1..], key, i - 1);
    }
  }

  /** `j[key]` for a named property; `None` is `undefined`. An array has no
      named property the client reads (it reads `data`, `items` and the note
      fields, never an index or `length`), and a primitive has none at all. */
  function Get(j: Json, key: string): Option<Json> {
    if j.JObj? then Lookup(j.members, key) else None
  }

  /** JavaScript truthiness: `null`, `false`, `0` and `""` are falsy;
      every array and object is truthy. */
  predicate Truthy(j: Json) {
    match j
    case JNull => false
    case JBool(b) => b
    case JNum(n) => n != 0
    case JStr(s) => s != ""
    case _ => true
  }

  /** `typeof j === "object"`, which holds for `null` and for arrays too. */
  predicate TypeofObject(j: Json) {
    j.JNull? || j.JArr? || j.JObj?
  }

  /** `Object.entries(j)` for an array or an object: an array's elements
      under their index written in decimal, an object's members in order. */
  function Entries(j: Json): (es: seq<Member>)
    requires j.JArr? || j.JObj?
    ensures j.JObj? ==> es == j.members
    ensures j.JArr? ==> |es| == |j.elems| && forall i :: 0 <= i < |es| ==> es[i].value == j.elems[i]
  {
    if j.JObj? then j.members
    else seq(|j.elems|, i requires 0 <= i < |j.elems| => Member(NatToDecimal(i), j.elems[i]))
  }

  /** No key occurs twice. */
  predicate DistinctKeys(ms: seq<Member>) {
    forall i, j :: 0 <= i < j < |ms| ==> ms[i].key != ms[j].key
  }

  /** The set of keys the members use. */
  function Keys(ms: seq<Member>): (ks: set<string>)
    ensures forall k :: k in ks <==> exists i :: 0 <= i < |ms| && ms[i].key == k
  {
    if |ms| == 0 then {} else {ms[0].key} + Keys(ms[1..])
  }
}

=== FILE: note_store.dfy ===
/** The date-keyed note store of client/main.js: one persisted document,
    a map from date key to a day bucket whose items are that day's notes,
    newest first.

    Every operation in the source loads the whole document, changes it and
    saves the whole document back. Here the load and the save are
    `LoadAll` and `SaveAll` on an immutable `Document`, and the CRUD
    operations are pure functions from the loaded map to the map that is
    saved. */
module NoteStore {

  /** The localStorage key the document lives under. */
  const StorageKey: string := "studyLogsV2"

  /** One study note. `createdAt` and `updatedAt` are epoch milliseconds. */
  datatype Note = Note(id: string, title: string, body: string, createdAt: int, updatedAt: int)

  /** The notes filed under one date key, newest first. */
  datatype Bucket = Bucket(items: seq<Note>)

  /** The whole persisted state: date key to bucket. */
  type Store = map<string, Bucket>

  /** What localStorage holds under `StorageKey`: nothing, text that does
      not parse, or a saved store. */
  datatype Document = Absent | Corrupt | Saved(store: Store)

  // ----- Persistence -----

  /** `loadAll`: the saved store, or the empty store when nothing is saved
      or the saved text is corrupt (reading never fails). */
  function LoadAll(doc: Document): (s: Store)
    ensures doc.Saved? ==> s == doc.store
    ensures !doc.Saved? ==> s == map[]
  {
    if doc.Saved? then doc.store else map[]
  }

  /** `saveAll`: the document that holds exactly `s`. */
  function SaveAll(s: Store): (doc: Document)
    ensures LoadAll(doc) == s
  {
    Saved(s)
  }

  /** Wiping removes the document; every key then reads as empty. */
  function Wipe(): (doc: Document)
    ensures LoadAll(doc) == map[]
    ensures forall key :: GetItems(LoadAll(doc), key) == []
  {
    Absent
  }

  // ----- Reading -----

  /** `getItems`: a copy of the bucket's items, or no items when the key has
      no bucket. */
  function GetItems(s: Store, key: string): (items: seq<Note>)
    ensures key !in s ==> items == []
    ensures key in s ==> items == s[key].items
  {
    if key in s then s[key].items else []
  }

  /** `s` and `r` agree on every key other than `key`. */
  ghost predicate SameElsewhere(s: Store, r: Store, key: string) {
    forall k :: k != key ==> (k in s <==> k in r) && (k in s ==> s[k] == r[k])
  }

  /** `ensureDay`: gives `key` a bucket if it has none. What any key reads as
      does not change, and no other key is touched. */
  function EnsureDay(s: Store, key: string): (r: Store)
    ensures key in r
    ensures forall k :: GetItems(r, k) == GetItems(s, k)
    ensures SameElsewhere(s, r, key)
  {
    if key in s then s else s[key := Bucket([])]
  }

  // ----- Searching a bucket -----

  /** `items.findIndex(x => x.id === id)`: the first position holding `id`,
      or -1 when no item has it. */
  function FindIndex(items: seq<Note>, id: string): (i: int)
    ensures -1 <= i < |items|
    ensures i >= 0 ==> items[i].id == id
    ensures i >= 0 ==> forall j :: 0 <= j < i ==> items[j].id != id
    ensures i == -1 <==> forall j :: 0 <= j < |items| ==> items[j].id != id
  {
    if |items| == 0 then -1
    else if items[0].id == id then 0
    else
      var k := FindIndex(items[1..], id);
      if k < 0 then -1 else k + 1
  }

  predicate HasId(items: seq<Note>, id: string) {
    exists j :: 0 <= j < |items| && items[j].id == id
  }

  /** No two items of a bucket share an id. */
  predicate UniqueIds(items: seq<Note>) {
    forall i, j :: 0 <= i < j < |items| ==> items[i].id != items[j].id
  }

  // ----- Upsert -----

  /** The bucket change `upsertItem` makes: replace the first item with the
      same id where it stands, or put the new item in front. */
  function UpsertInto(items: seq<Note>, item: Note): (r: seq<Note>)
    ensures HasId(items, item.id) ==> r == items[FindIndex(items, item.id) := item]
    ensures !HasId(items, item.id) ==> r == [item] + items
  {
    var idx := FindIndex(items, item.id);
    if idx >= 0 then items[idx := item] else [item] + items
  }

  /** After an upsert the note is in the bucket, the bucket grows only when
      the id was new, and every item with another id keeps its place, one
      further back when the note went in front. */
  lemma UpsertIntoPositions(items: seq<Note>, item: Note)
    ensures item in UpsertInto(items, item)
    ensures |UpsertInto(items, item)| == if HasId(items, item.id) then |items| else |items| + 1
    ensures forall j :: 0 <= j < |items| && items[j].id != item.id ==>
              items[j] == UpsertInto(items, item)[j + |UpsertInto(items, item)| - |items|]
  {
    var r := UpsertInto(items, item);
    if HasId(items, item.id) {
      var k := FindIndex(items, item.id);
      assert r == items[k := item];
      assert r[k] == item;
      forall j | 0 <= j < |items| && items[j].id != item.id
        ensures items[j] == r[j]
      {
        assert j != k;
      }
    } else {
      assert r == [item] + items;
      assert r[0] == item;
      forall j | 0 <= j < |items|
        ensures items[j] == r[j + 1]
      {
      }
    }
  }

  /** `upsertItem(key, item)`. */
  function UpsertItem(s: Store, key: string, item: Note): (r: Store)
    ensures key in r
    ensures GetItems(r, key) == UpsertInto(GetItems(s, key), item)
    ensures SameElsewhere(s, r, key)
  {
    var day := EnsureDay(s, key);
    day[key := Bucket(UpsertInto(day[key].items, item))]
  }

  /** An existing id is updated in place: same length, same position, every
      other item unchanged. */
  lemma UpsertReplacesInPlace(s: Store, key: string, item: Note, i: nat)
    requires i < |GetItems(s, key)| && GetItems(s, key)[i].id == item.id
    requires forall j :: 0 <= j < i ==> GetItems(s, key)[j].id != item.id
    ensures |GetItems(UpsertItem(s, key, item), key)| == |GetItems(s, key)|
    ensures GetItems(UpsertItem(s, key, item), key)[i] == item
    ensures forall j :: 0 <= j < |GetItems(s, key)| && j != i ==>
              GetItems(UpsertItem(s, key, item), key)[j] == GetItems(s, key)[j]
  {
    var items := GetItems(s, key);
    assert HasId(items, item.id);
    var idx := FindIndex(items, item.id);
    assert idx == i;
  }

  /** A new id goes in front, making the bucket one longer. */
  lemma UpsertPrependsNew(s: Store, key: string, item: Note)
    requires !HasId(GetItems(s, key), item.id)
    ensures GetItems(UpsertItem(s, key, item), key) == [item] + GetItems(s, key)
    ensures |GetItems(UpsertItem(s, key, item), key)| == |GetItems(s, key)| + 1
  {
  }

  lemma UpsertIntoIdempotent(items: seq<Note>, item: Note)
    ensures UpsertInto(UpsertInto(items, item), item) == UpsertInto(items, item)
  {
    var once := UpsertInto(items, item);
    if HasId(items, item.id) {
      var k := FindIndex(items, item.id);
      assert once[k] == item;
      assert forall j :: 0 <= j < k ==> once[j] == items[j];
      assert FindIndex(once, item.id) == k;
    } else {
      assert once[0] == item;
      assert FindIndex(once, item.id) == 0;
    }
  }

  /** Upserting the same note twice leaves the same store as upserting it once. */
  lemma UpsertIdempotent(s: Store, key: string, item: Note)
    ensures UpsertItem(UpsertItem(s, key, item), key, item) == UpsertItem(s, key, item)
  {
    var r1 := UpsertItem(s, key, item);
    UpsertIntoIdempotent(GetItems(s, key), item);
    assert EnsureDay(r1, key) == r1;
    assert r1[key] == Bucket(UpsertInto(GetItems(s, key), item));
    assert r1[key := r1[key]] == r1;
  }

  /** When a bucket's ids were unique, they stay unique after an upsert, and
      the upserted note is then the one and only item carrying its id. */
  lemma UpsertKeepsIdsUnique(s: Store, key: string, item: Note)
    requires UniqueIds(GetItems(s, key))
    ensures UniqueIds(GetItems(UpsertItem(s, key, item), key))
    ensures item in GetItems(UpsertItem(s, key, item), key)
    ensures forall j :: 0 <= j < |GetItems(UpsertItem(s, key, item), key)|
              && GetItems(UpsertItem(s, key, item), key)[j].id == item.id
              ==> GetItems(UpsertItem(s, key, item), key)[j] == item
  {
    var items := GetItems(s, key);
    var r := UpsertInto(items, item);
    if HasId(items, item.id) {
      var idx := FindIndex(items, item.id);
      assert r[idx] == item;
    } else {
      assert r[0] == item;
      forall i, j | 0 <= i < j < |r|
        ensures r[i].id != r[j].id
      {
        if i == 0 {
          assert r[j] == items[j - 1];
        } else {
          assert r[i] == items[i - 1] && r[j] == items[j - 1];
        }
      }
    }
  }

  // ----- Delete -----

  /** `items.filter(x => x.id !== id)`. */
  function RemoveId(items: seq<Note>, id: string): (r: seq<Note>)
    ensures |r| <= |items|
    ensures forall x :: x in r <==> x in items && x.id != id
    ensures forall x :: multiset(r)[x] == if x.id == id then 0 else multiset(items)[x]
  {
    if |items| == 0 then []
    else
      var rest := RemoveId(items[1..], id);
      assert items == [items[0]] + items[1..];
      if items[0].id == id then rest else [items[0]] + rest
  }

  /** `a` is `b` with some elements left out, the rest in their order. */
  predicate IsSubsequence(a: seq<Note>, b: seq<Note>)
    decreases |b|
  {
    if |a| == 0 then true
    else if |b| == 0 then false
    else if a[0] == b[0] then IsSubsequence(a[1..], b[1..])
    else IsSubsequence(a, b[1..])
  }

  lemma {:induction false} RemoveIdKeepsOrder(items: seq<Note>, id: string)
    ensures IsSubsequence(RemoveId(items, id), items)
    decreases |items|
  {
    if |items| > 0 {
      RemoveIdKeepsOrder(items[1..], id);
      var rest := RemoveId(items[1..], id);
      if items[0].id != id {
        assert ([items[0]] + rest)[1..] == rest;
      } else if |rest| > 0 {
        assert rest[0] in items[1..];
      }
    }
  }

  lemma AbsentFromTail(items: seq<Note>, id: string)
    requires |items| > 0 && !HasId(items, id)
    ensures items[0].id != id && !HasId(items[1..], id)
  {
    forall j | 0 <= j < |items[1..]|
      ensures items[1..][j].id != id
    {
      assert items[1..][j] == items[j + 1];
    }
  }

  lemma RemoveIdKeepsHead(items: seq<Note>, id: string)
    requires |items| > 0 && items[0].id != id
    ensures RemoveId(items, id) == [items[0]] + RemoveId(items[1..], id)
  {
  }

  lemma {:induction false} RemoveAbsentId(items: seq<Note>, id: string)
    requires !HasId(items, id)
    ensures RemoveId(items, id) == items
    decreases |items|
  {
    if |items| > 0 {
      AbsentFromTail(items, id);
      RemoveAbsentId(items[1..], id);
      RemoveIdKeepsHead(items, id);
      assert [items[0]] + items[1..] == items;
    }
  }

  /** `deleteItem(key, id)`. */
  function DeleteItem(s: Store, key: string, id: string): (r: Store)
    ensures key in r
    ensures GetItems(r, key) == RemoveId(GetItems(s, key), id)
    ensures SameElsewhere(s, r, key)
  {
    var day := EnsureDay(s, key);
    day[key := Bucket(RemoveId(day[key].items, id))]
  }

  /** After a delete, exactly the items with a different id remain, each as
      many times as before and in their original relative order; an absent id
      changes nothing observable. */
  lemma DeleteLeavesOthersInOrder(s: Store, key: string, id: string)
    ensures forall x :: x in GetItems(DeleteItem(s, key, id), key) <==> x in GetItems(s, key) && x.id != id
    ensures forall x :: multiset(GetItems(DeleteItem(s, key, id), key))[x]
                          == if x.id == id then 0 else multiset(GetItems(s, key))[x]
    ensures IsSubsequence(GetItems(DeleteItem(s, key, id), key), GetItems(s, key))
    ensures !HasId(GetItems(s, key), id) ==> GetItems(DeleteItem(s, key, id), key) == GetItems(s, key)
  {
    RemoveIdKeepsOrder(GetItems(s, key), id);
    if !HasId(GetItems(s, key), id) {
      RemoveAbsentId(GetItems(s, key), id);
    }
  }

  /** Deleting from a day that has no bucket leaves that day with an empty
      bucket and changes nothing else. */
  lemma DeleteCreatesMissingBucket(s: Store, key: string, id: string)
    requires key !in s
    ensures DeleteItem(s, key, id) == s[key := Bucket([])]
  {
  }

  /** Deleting an id that a present bucket does not hold leaves the store as
      it is. */
  lemma DeleteAbsentIsNoOp(s: Store, key: string, id: string)
    requires key in s && !HasId(s[key].items, id)
    ensures DeleteItem(s, key, id) == s
  {
    RemoveAbsentId(s[key].items, id);
    assert s[key := Bucket(s[key].items)] == s;
  }

  /** Deleting twice is deleting once. */
  lemma DeleteIdempotent(s: Store, key: string, id: string)
    ensures DeleteItem(DeleteItem(s, key, id), key, id) == DeleteItem(s, key, id)
  {
    var r1 := DeleteItem(s, key, id);
    assert !HasId(GetItems(r1, key), id);
    DeleteAbsentIsNoOp(r1, key, id);
  }

  /** Deleting a note just added under a fresh id undoes the add, as seen
      through `GetItems` on every key. */
  lemma DeleteUndoesNewUpsert(s: Store, key: string, item: Note)
    requires !HasId(GetItems(s, key), item.id)
    ensures forall k :: GetItems(DeleteItem(UpsertItem(s, key, item), key, item.id), k) == GetItems(s, k)
  {
    var items := GetItems(s, key);
    RemoveAbsentId(items, item.id);
    assert ([item] + items)[1..] == items;
  }

  // ----- The ordering scenario -----

  /** Two notes saved the same day read newest first; updating the older one
      keeps that order; deleting it leaves only the newer one. */
  lemma NewestFirstScenario(s: Store, key: string, a: Note, b: Note, a2: Note)
    requires GetItems(s, key) == []
    requires a.id != b.id && a2.id == a.id
    ensures GetItems(UpsertItem(UpsertItem(s, key, a), key, b), key) == [b, a]
    ensures GetItems(UpsertItem(UpsertItem(UpsertItem(s, key, a), key, b), key, a2), key) == [b, a2]
    ensures GetItems(DeleteItem(UpsertItem(UpsertItem(s, key, a), key, b), key, a.id), key) == [b]
  {
    var s1 := UpsertItem(s, key, a);
    assert GetItems(s1, key) == [a];
    var s2 := UpsertItem(s1, key, b);
    assert !HasId([a], b.id);
    assert GetItems(s2, key) == [b, a];
    assert HasId([b, a], a2.id) by { assert [b, a][1].id == a2.id; }
    assert FindIndex([b, a], a2.id) == 1;
    assert [b, a][1 := a2] == [b, a2];
    assert RemoveId([a], a.id) == [];
    assert RemoveId([b, a], a.id) == [b] + RemoveId([a], a.id);
  }
}

=== FILE: review.dfy ===
/** The review page's slots (`labelFor`, `renderFixedBlock`,
    `buildOffsetOptions`, `renderSelectableBlock`, `renderReview`): which
    day each block shows and the heading it shows it under. */
module Review {
  import opened Wrappers
  import opened Text
  import opened Calendar
  import opened DateKey

  /** `labelFor(days, key)`: the heading of a review block. Offsets 0, 1, 7
      and 14 are named (today, yesterday, one week ago, two weeks ago); any
      other offset shows the key and the number of days. */
  function LabelFor(days: int, key: string): (r: string)
    ensures EndsWith(r, IntToDecimal(days) + "日前）")
    ensures days !in {0, 1, 7, 14} ==> EndsWith(r, "（" + IntToDecimal(days) + "日前）")
    ensures Shows(r, key)
  {
    if days == 0 then NamedLabelParts("今日（", key, 0); "今日（" + key + " / 0日前）"
    else if days == 1 then NamedLabelParts("昨日（", key, 1); "昨日（" + key + " / 1日前）"
    else if days == 7 then NamedLabelParts("1週間前（", key, 7); "1週間前（" + key + " / 7日前）"
    else if days == 14 then NamedLabelParts("2週間前（", key, 14); "2週間前（" + key + " / 14日前）"
    else
      LabelParts("", key, "（", IntToDecimal(days));
      assert "" + key + "（" + IntToDecimal(days) + "日前）" == key + "（" + IntToDecimal(days) + "日前）";
      PlainCount(key, IntToDecimal(days));
      key + "（" + IntToDecimal(days) + "日前）"
  }

  /** `t` is the last part of `s`. */
  predicate EndsWith(s: string, t: string) {
    |t| <= |s| && s[|s| - |t|..] == t
  }

  /** The `n` characters of `s` from position `i` on, when there are that many. */
  function Part(s: string, i: int, n: nat): string {
    if 0 <= i && i + n <= |s| then s[i..i + n] else []
  }

  /** `t` occurs in `s` as a contiguous part. */
  predicate Shows(s: string, t: string) {
    exists i :: 0 <= i <= |s| - |t| && Part(s, i, |t|) == t
  }

  /** A plain heading ends with its count between '（' and `日前）`. */
  lemma PlainCount(key: string, digits: string)
    ensures EndsWith(key + "（" + digits + "日前）", "（" + digits + "日前）")
  {
    var r := key + "（" + digits + "日前）";
    assert r == key + ("（" + digits + "日前）");
    assert r[|key|..] == "（" + digits + "日前）";
  }

  /** Where the key and the day count sit in a heading. */
  lemma LabelParts(before: string, key: string, between: string, digits: string)
    ensures var r := before + key + between + digits + "日前）";
      EndsWith(r, digits + "日前）") && Shows(r, key)
  {
    var r := before + key + between + digits + "日前）";
    assert Part(r, |before|, |key|) == key;
    assert r[|r| - |digits + "日前）"|..] == digits + "日前）";
  }

  /** The same for a named heading, whose day count is written out. */
  lemma NamedLabelParts(prefix: string, key: string, days: int)
    requires days in {0, 1, 7, 14}
    ensures var r := prefix + key + " / " + IntToDecimal(days) + "日前）";
      EndsWith(r, IntToDecimal(days) + "日前）") && Shows(r, key)
    ensures days == 0 ==> prefix + key + " / 0日前）" == prefix + key + " / " + IntToDecimal(days) + "日前）"
    ensures days == 1 ==> prefix + key + " / 1日前）" == prefix + key + " / " + IntToDecimal(days) + "日前）"
    ensures days == 7 ==> prefix + key + " / 7日前）" == prefix + key + " / " + IntToDecimal(days) + "日前）"
    ensures days == 14 ==> prefix + key + " / 14日前）" == prefix + key + " / " + IntToDecimal(days) + "日前）"
  {
    SmallDecimals();
    LabelParts(prefix, key, " / ", IntToDecimal(days));
  }

  /** The offset a named heading stands for. */
  function NamedOffset(name: string): Option<int> {
    if name == "今日" then Some(0)
    else if name == "昨日" then Some(1)
    else if name == "1週間前" then Some(7)
    else if name == "2週間前" then Some(14)
    else None
  }

  /** The position of the first `c` in `s`. */
  function FirstIndexOf(s: string, c: char): (r: Option<nat>)
    ensures r.Some? ==> r.value < |s| && s[r.value] == c && forall k :: 0 <= k < r.value ==> s[k] != c
    ensures r.None? ==> forall k :: 0 <= k < |s| ==> s[k] != c
  {
    if |s| == 0 then None
    else if s[0] == c then Some(0)
    else match FirstIndexOf(s[1..], c)
      case None => None
      case Some(i) => Some(i + 1)
  }

  /** Reads a heading back into its offset and date key; `None` for text
      that is not a heading. */
  function ParseLabel(heading: string): Option<(int, string)> {
    match FirstIndexOf(heading, '（')
    case None => None
    case Some(p) => ParseParts(heading[..p], heading[p + 1..])
  }

  /** The heading split at its first '（': a name or a key before it, the
      rest after it. */
  function ParseParts(head: string, rest: string): Option<(int, string)> {
    match NamedOffset(head)
    case Some(days) =>
      var tail := " / " + IntToDecimal(days) + "日前）";
      if |rest| >= |tail| && rest[|rest| - |tail|..] == tail then Some((days, rest[..|rest| - |tail|]))
      else None
    case None =>
      if |rest| >= 3 && rest[|rest| - 3..] == "日前）" then
        match ParseDecimal(rest[..|rest| - 3])
        case Some(days) => Some((days, head))
        case None => None
      else None
  }

  lemma FirstIndexAfter(a: string, c: char, b: string)
    requires forall k :: 0 <= k < |a| ==> a[k] != c
    ensures FirstIndexOf(a + [c] + b, c) == Some(|a|)
  {
    var r := FirstIndexOf(a + [c] + b, c);
    assert (a + [c] + b)[|a|] == c;
  }

  lemma ParseLabelSplit(head: string, rest: string)
    requires forall k :: 0 <= k < |head| ==> head[k] != '（'
    ensures ParseLabel(head + ['（'] + rest) == ParseParts(head, rest)
  {
    var s := head + ['（'] + rest;
    FirstIndexAfter(head, '（', rest);
    assert s[..|head|] == head;
    assert s[|head| + 1..] == rest;
  }

  lemma SplitAt(a: string, b: string)
    ensures (a + b)[..|a|] == a && (a + b)[|a|..] == b
  {
  }

  lemma NamedLabel(name: string, days: int, key: string)
    requires NamedOffset(name) == Some(days)
    requires forall k :: 0 <= k < |name| ==> name[k] != '（'
    ensures ParseLabel(name + "（" + key + " / " + IntToDecimal(days) + "日前）") == Some((days, key))
  {
    var tail := " / " + IntToDecimal(days) + "日前）";
    assert name + "（" + key + " / " + IntToDecimal(days) + "日前）" == name + ['（'] + (key + tail);
    ParseLabelSplit(name, key + tail);
    SplitAt(key, tail);
  }

  lemma PlainLabel(days: int, key: string)
    requires NamedOffset(key) == None
    requires forall k :: 0 <= k < |key| ==> key[k] != '（'
    ensures ParseLabel(key + "（" + IntToDecimal(days) + "日前）") == Some((days, key))
  {
    var digits := IntToDecimal(days);
    assert key + "（" + digits + "日前）" == key + ['（'] + (digits + "日前）");
    ParseLabelSplit(key, digits + "日前）");
    SplitAt(digits, "日前）");
    IntToDecimalRoundTrip(days);
  }

  lemma KeyTextIsNotNamed(key: string)
    requires IsKeyText(key)
    ensures NamedOffset(key) == None
    ensures forall k :: 0 <= k < |key| ==> key[k] != '（'
  {
    if |key| >= 2 {
      assert IsDigit(key[0]) || key[0] == '-';
      assert IsDigit(key[1]) || key[1] == '-';
    }
  }

  lemma SmallDecimals()
    ensures IntToDecimal(0) == "0" && IntToDecimal(1) == "1"
    ensures IntToDecimal(7) == "7" && IntToDecimal(14) == "14"
  {
    assert NatToDecimal(1) == "1";
    assert NatToDecimal(14) == NatToDecimal(1) + "4";
  }

  /** A heading determines its offset and its key: `LabelFor` loses nothing
      for a key made of digits and '-', which every date key is. */
  lemma LabelRoundTrip(days: int, key: string)
    requires IsKeyText(key)
    ensures ParseLabel(LabelFor(days, key)) == Some((days, key))
  {
    KeyTextIsNotNamed(key);
    SmallDecimals();
    if days == 0 {
      assert LabelFor(0, key) == "今日" + "（" + key + " / " + IntToDecimal(0) + "日前）";
      NamedLabel("今日", 0, key);
    } else if days == 1 {
      assert LabelFor(1, key) == "昨日" + "（" + key + " / " + IntToDecimal(1) + "日前）";
      NamedLabel("昨日", 1, key);
    } else if days == 7 {
      assert LabelFor(7, key) == "1週間前" + "（" + key + " / " + IntToDecimal(7) + "日前）";
      NamedLabel("1週間前", 7, key);
    } else if days == 14 {
      assert LabelFor(14, key) == "2週間前" + "（" + key + " / " + IntToDecimal(14) + "日前）";
      NamedLabel("2週間前", 14, key);
    } else {
      assert LabelFor(days, key) == key + "（" + IntToDecimal(days) + "日前）";
      PlainLabel(days, key);
    }
  }

  /** The text before a heading's first '（': the day's name, or the key. */
  function LabelHead(heading: string): string {
    match FirstIndexOf(heading, '（')
    case None => heading
    case Some(p) => heading[..p]
  }

  /** The head of a heading whose first part is `prefix`, ending in '（'. */
  lemma HeadOfHeading(prefix: string, key: string, tail: string)
    requires |prefix| >= 1 && prefix[|prefix| - 1] == '（'
    requires forall k :: 0 <= k < |prefix| - 1 ==> prefix[k] != '（'
    ensures LabelHead(prefix + key + tail) == prefix[..|prefix| - 1]
  {
    var name := prefix[..|prefix| - 1];
    assert prefix + key + tail == name + ['（'] + (key + tail);
    FirstIndexAfter(name, '（', key + tail);
    assert (name + ['（'] + (key + tail))[..|name|] == name;
  }

  /** The heads of the four named headings. */
  lemma NamedHeads(key: string)
    ensures LabelHead(LabelFor(0, key)) == "今日"
    ensures LabelHead(LabelFor(1, key)) == "昨日"
    ensures LabelHead(LabelFor(7, key)) == "1週間前"
    ensures LabelHead(LabelFor(14, key)) == "2週間前"
  {
    HeadOfHeading("今日（", key, " / 0日前）");
    assert "今日（"[..2] == "今日";
    HeadOfHeading("昨日（", key, " / 1日前）");
    assert "昨日（"[..2] == "昨日";
    HeadOfHeading("1週間前（", key, " / 7日前）");
    assert "1週間前（"[..4] == "1週間前";
    HeadOfHeading("2週間前（", key, " / 14日前）");
    assert "2週間前（"[..4] == "2週間前";
  }

  /** Any other offset's heading is headed by its key. */
  lemma PlainHead(days: int, key: string)
    requires days !in {0, 1, 7, 14}
    requires forall k :: 0 <= k < |key| ==> key[k] != '（'
    ensures LabelHead(LabelFor(days, key)) == key
  {
    var tail := IntToDecimal(days) + "日前）";
    assert LabelFor(days, key) == key + ['（'] + tail;
    FirstIndexAfter(key, '（', tail);
    assert (key + ['（'] + tail)[..|key|] == key;
  }

  /** `labelFor` names offsets 0, 1, 7 and 14 (今日, 昨日, 1週間前, 2週間前) and
      only those; every other offset is headed by the key itself. */
  lemma LabelNamesItsOffset(days: int, key: string)
    requires IsKeyText(key)
    ensures NamedOffset(LabelHead(LabelFor(days, key))) == (if days in {0, 1, 7, 14} then Some(days) else None)
    ensures days !in {0, 1, 7, 14} ==> LabelHead(LabelFor(days, key)) == key
  {
    if days in {0, 1, 7, 14} {
      NamedHeads(key);
    } else {
      KeyTextIsNotNamed(key);
      PlainHead(days, key);
    }
  }

  /** Headings of different blocks differ whenever their offsets or their
      keys differ. */
  lemma LabelInjective(d1: int, k1: string, d2: int, k2: string)
    requires IsKeyText(k1) && IsKeyText(k2)
    requires LabelFor(d1, k1) == LabelFor(d2, k2)
    ensures d1 == d2 && k1 == k2
  {
    LabelRoundTrip(d1, k1);
    LabelRoundTrip(d2, k2);
  }

  // ----- Review slots -----

  /** One review block: how many days back it looks, the bucket it reads and
      its heading. */
  datatype Slot = Slot(offset: int, key: string, heading: string)

  /** The block for `offset` days before today (`renderFixedBlock`,
      `renderSelectableBlock`). */
  function SlotFor(today: CivilDate, offset: int): Slot
    requires Valid(today)
  {
    var key := DateKeyMinus(today, offset);
    Slot(offset, key, LabelFor(offset, key))
  }

  /** A block's key names the date exactly `offset` days back, and its
      heading reads back as that offset and that key. */
  lemma SlotMeaning(today: CivilDate, offset: int)
    requires Valid(today)
    ensures var slot := SlotFor(today, offset);
      && slot.offset == offset
      && ParseDateKey(slot.key).Some?
      && DayNumber(ParseDateKey(slot.key).value) == DayNumber(today) - offset
      && ParseLabel(slot.heading) == Some((offset, slot.key))
  {
    LabelRoundTrip(offset, DateKeyMinus(today, offset));
  }

  /** The three fixed blocks `renderReview` always shows: one, seven and
      fourteen days back. */

  function FixedSlots(today: CivilDate): (slots: seq<Slot>)
    requires Valid(today)
  {
    [SlotFor(today, 1), SlotFor(today, 7), SlotFor(today, 14)]
  }

  /** The selector offers every offset from 0 to this many days back. */
  const MaxOffset: nat := 14

  /** One block per selectable offset, in the selector's order: entry `i`
      reads the bucket of the date `i` days back, under a heading that reads
      back as `i` and that key. */
  function SelectableSlots(today: CivilDate): (slots: seq<Slot>)
    requires Valid(today)
    ensures |slots| == MaxOffset + 1
    ensures forall i :: 0 <= i < |slots| ==> slots[i] == SlotFor(today, i)
    ensures forall i :: 0 <= i < |slots| ==>
              && slots[i].offset == i
              && ParseDateKey(slots[i].key).Some?
              && DayNumber(ParseDateKey(slots[i].key).value) == DayNumber(today) - i
              && ParseLabel(slots[i].heading) == Some((i, slots[i].key))
  {
    var slots := seq(MaxOffset + 1, i requires 0 <= i <= MaxOffset => SlotFor(today, i));
    assert forall i :: 0 <= i < |slots| ==>
              && slots[i].offset == i
              && ParseDateKey(slots[i].key).Some?
              && DayNumber(ParseDateKey(slots[i].key).value) == DayNumber(today) - i
              && ParseLabel(slots[i].heading) == Some((i, slots[i].key)) by {
      forall i | 0 <= i < |slots|
        ensures && slots[i].offset == i
                && ParseDateKey(slots[i].key).Some?
                && DayNumber(ParseDateKey(slots[i].key).value) == DayNumber(today) - i
                && ParseLabel(slots[i].heading) == Some((i, slots[i].key))
      {
        SlotMeaning(today, i);
      }
    }
    slots
  }

  /** The selector's first entry, its default, is today's bucket. */
  lemma DefaultSlotIsToday(today: CivilDate)
    requires Valid(today)
    ensures SelectableSlots(today)[0].key == TodayKey(today)
  {
    assert SelectableSlots(today)[0] == SlotFor(today, 0);
  }

  /** Each fixed block coincides with the selectable block of the same
      offset. */
  lemma FixedSlotsAreSelectable(today: CivilDate)
    requires Valid(today)
    ensures var sel := SelectableSlots(today);
      FixedSlots(today) == [sel[1], sel[7], sel[14]]
  {
    var sel := SelectableSlots(today);
    assert sel[1] == SlotFor(today, 1);
    assert sel[7] == SlotFor(today, 7);
    assert sel[14] == SlotFor(today, 14);
  }

  /** No two selectable blocks read the same bucket. */
  lemma SelectableSlotsDistinct(today: CivilDate)
    requires Valid(today)
    ensures forall i, j :: 0 <= i < j < MaxOffset + 1 ==>
              SelectableSlots(today)[i].key != SelectableSlots(today)[j].key
  {
    var slots := SelectableSlots(today);
    forall i, j | 0 <= i < j < MaxOffset + 1
      ensures slots[i].key != slots[j].key
    {
      assert DayNumber(ParseDateKey(slots[i].key).value) != DayNumber(ParseDateKey(slots[j].key).value);
    }
  }
}

=== FILE: save_item.dfy ===
/** The save button: the note the form turns into, and where it lands in
    today's bucket (client/main.js, the `saveBtn` click handler).

    The clock reading `Date.now()` and the id `uid()` would mint are
    parameters, `now` and `freshId`. */
module SaveItem {
  import opened Wrappers
  import opened Text
  import opened NoteStore

  /** Why a save is refused: a blank title is reported before a blank body. */
  datatype SaveError = TitleRequired | BodyRequired

  /** Whether the form is editing a note: `editingId` is `null` (`None`) or
      an id, and the empty id is falsy like `null`. */
  predicate Editing(editingId: Option<string>) {
    editingId.Some? && editingId.value != ""
  }

  /** `items.find(x => x.id === id)`: the first item carrying `id`. */
  function FindById(items: seq<Note>, id: string): (r: Option<Note>)
    ensures r.Some? <==> HasId(items, id)
    ensures r.Some? ==> r.value.id == id && r.value == items[FindIndex(items, id)]
  {
    var i := FindIndex(items, id);
    if i >= 0 then Some(items[i]) else None
  }

  /** The note the form describes. Title and body are trimmed and must not be
      empty. The id is the edited note's id, or the fresh one when not
      editing. The creation time is kept from the note being edited when it
      is still in today's bucket and is `now` otherwise; the update time is
      always `now`. */
  function BuildNote(editingId: Option<string>, todayItems: seq<Note>, rawTitle: string, rawBody: string,
                     now: int, freshId: string): (r: Result<Note, SaveError>)
    ensures r == Err(TitleRequired) <==> AllSpace(rawTitle)
    ensures r == Err(BodyRequired) <==> !AllSpace(rawTitle) && AllSpace(rawBody)
    ensures r.Ok? ==> r.value.title == Trim(rawTitle) && r.value.body == Trim(rawBody)
    ensures r.Ok? ==> r.value.title != "" && r.value.body != ""
    ensures r.Ok? ==> r.value.updatedAt == now
  {
    var title := Trim(rawTitle);
    var body := Trim(rawBody);
    if title == "" then Err(TitleRequired)
    else if body == "" then Err(BodyRequired)
    else
      var existing := if Editing(editingId) then FindById(todayItems, editingId.value) else None;
      var id := if Editing(editingId) then editingId.value else freshId;
      var createdAt := if existing.Some? then existing.value.createdAt else now;
      Ok(Note(id, title, body, createdAt, now))
  }

  /** The whole handler on the loaded store: build the note from today's
      bucket, then upsert it there. A refused save changes nothing, and a
      save only ever touches today's bucket. */
  function SaveNote(s: Store, today: string, editingId: Option<string>, rawTitle: string, rawBody: string,
                    now: int, freshId: string): (r: Result<Store, SaveError>)
    ensures r.Err? <==> AllSpace(rawTitle) || AllSpace(rawBody)
    ensures r.Ok? ==> today in r.value && SameElsewhere(s, r.value, today)
  {
    match BuildNote(editingId, GetItems(s, today), rawTitle, rawBody, now, freshId)
    case Err(e) => Err(e)
    case Ok(item) => Ok(UpsertItem(s, today, item))
  }

  /** Saving an edit of a note still in today's bucket rewrites it where it
      stands: it keeps its id, its position and its creation time, takes the
      trimmed text and `now` as its update time, and nothing else in the
      bucket moves. */
  lemma SaveEditInPlace(s: Store, today: string, id: string, rawTitle: string, rawBody: string,
                        now: int, freshId: string)
    requires id != "" && HasId(GetItems(s, today), id)
    requires !AllSpace(rawTitle) && !AllSpace(rawBody)
    ensures var items := GetItems(s, today);
      var i := FindIndex(items, id);
      var r := SaveNote(s, today, Some(id), rawTitle, rawBody, now, freshId);
      && r.Ok?
      && GetItems(r.value, today)
         == items[i := Note(id, Trim(rawTitle), Trim(rawBody), items[i].createdAt, now)]
  {
    var items := GetItems(s, today);
    var b := BuildNote(Some(id), items, rawTitle, rawBody, now, freshId);
    assert b.Ok?;
    assert b.value == Note(id, Trim(rawTitle), Trim(rawBody), items[FindIndex(items, id)].createdAt, now);
  }

  /** Saving a new note puts it in front of today's bucket, created and
      updated at `now`, under the fresh id. */
  lemma SaveNewPrepends(s: Store, today: string, editingId: Option<string>, rawTitle: string, rawBody: string,
                        now: int, freshId: string)
    requires !Editing(editingId) && !HasId(GetItems(s, today), freshId)
    requires !AllSpace(rawTitle) && !AllSpace(rawBody)
    ensures var r := SaveNote(s, today, editingId, rawTitle, rawBody, now, freshId);
      && r.Ok?
      && GetItems(r.value, today)
         == [Note(freshId, Trim(rawTitle), Trim(rawBody), now, now)] + GetItems(s, today)
  {
    var b := BuildNote(editingId, GetItems(s, today), rawTitle, rawBody, now, freshId);
    assert b.Ok? && b.value.id == freshId;
    UpsertPrependsNew(s, today, b.value);
  }

  /** Saving an edit whose note has left today's bucket while the form was
      open (a wipe, an import, or a change made in another tab) does not
      fail: the note is saved again in front of today's bucket, under the
      same id, created at `now`. */
  lemma SaveVanishedEditPrepends(s: Store, today: string, id: string, rawTitle: string, rawBody: string,
                                 now: int, freshId: string)
    requires id != "" && !HasId(GetItems(s, today), id)
    requires !AllSpace(rawTitle) && !AllSpace(rawBody)
    ensures var r := SaveNote(s, today, Some(id), rawTitle, rawBody, now, freshId);
      && r.Ok?
      && GetItems(r.value, today) == [Note(id, Trim(rawTitle), Trim(rawBody), now, now)] + GetItems(s, today)
  {
    var b := BuildNote(Some(id), GetItems(s, today), rawTitle, rawBody, now, freshId);
    assert b.Ok? && b.value.id == id;
    UpsertPrependsNew(s, today, b.value);
  }

  /** Every note of the bucket was created no later than its last update,
      which lies no later than `now`. */
  predicate TimesOrdered(items: seq<Note>, now: int) {
    forall i :: 0 <= i < |items| ==> items[i].createdAt <= items[i].updatedAt <= now
  }

  lemma UpsertKeepsTimesOrdered(items: seq<Note>, item: Note, now: int)
    requires TimesOrdered(items, now)
    requires item.createdAt <= item.updatedAt <= now
    ensures TimesOrdered(UpsertInto(items, item), now)
  {
    var r := UpsertInto(items, item);
    if !HasId(items, item.id) {
      forall i | 0 <= i < |r|
        ensures r[i].createdAt <= r[i].updatedAt <= now
      {
        if i > 0 {
          assert r[i] == items[i - 1];
        }
      }
    }
  }

  /** The note a save builds was created no later than `now` when every note
      of the bucket was. */
  lemma BuiltNoteTimesOrdered(editingId: Option<string>, items: seq<Note>, rawTitle: string, rawBody: string,
                              now: int, freshId: string)
    requires TimesOrdered(items, now)
    ensures var b := BuildNote(editingId, items, rawTitle, rawBody, now, freshId);
      b.Ok? ==> b.value.createdAt <= b.value.updatedAt <= now
  {
    var b := BuildNote(editingId, items, rawTitle, rawBody, now, freshId);
    if b.Ok? && Editing(editingId) && HasId(items, editingId.value) {
      assert b.value.createdAt == items[FindIndex(items, editingId.value)].createdAt;
    }
  }

  /** A save keeps the bucket's timestamps ordered when the clock has not
      gone back since the last save. */
  lemma SaveKeepsTimesOrdered(s: Store, today: string, editingId: Option<string>, rawTitle: string,
                              rawBody: string, now: int, freshId: string)
    requires TimesOrdered(GetItems(s, today), now)
    ensures var r := SaveNote(s, today, editingId, rawTitle, rawBody, now, freshId);
      r.Ok? ==> TimesOrdered(GetItems(r.value, today), now)
  {
    var items := GetItems(s, today);
    var b := BuildNote(editingId, items, rawTitle, rawBody, now, freshId);
    BuiltNoteTimesOrdered(editingId, items, rawTitle, rawBody, now, freshId);
    if b.Ok? {
      UpsertKeepsTimesOrdered(items, b.value, now);
    }
  }

  /** A save keeps the ids of today's bucket unique: a taken id is
      rewritten in place rather than added again. */
  lemma SaveKeepsIdsUnique(s: Store, today: string, editingId: Option<string>, rawTitle: string,
                           rawBody: string, now: int, freshId: string)
    requires UniqueIds(GetItems(s, today))
    ensures var r := SaveNote(s, today, editingId, rawTitle, rawBody, now, freshId);
      r.Ok? ==> UniqueIds(GetItems(r.value, today))
  {
    var b := BuildNote(editingId, GetItems(s, today), rawTitle, rawBody, now, freshId);
    if b.Ok? {
      UpsertKeepsIdsUnique(s, today, b.value);
    }
  }
}

=== FILE: text.dfy ===
/** String helpers the client relies on from the JavaScript runtime:
    decimal rendering of numbers (`String(n)`, template literals),
    `padStart` and `trim`. */
module Text {
  import opened Wrappers

  // ----- Decimal digits -----

  predicate IsDigit(c: char) {
    '0' <= c <= '9'
  }

  predicate AllDigits(s: string) {
    forall k :: 0 <= k < |s| ==> IsDigit(s[k])
  }

  function DigitValue(c: char): (v: nat)
    requires IsDigit(c)
    ensures v < 10
  {
    c as int - '0' as int
  }

  function DigitChar(d: nat): (c: char)
    requires d < 10
    ensures IsDigit(c) && DigitValue(c) == d
  {
    ('0' as int + d) as char
  }

  /** The decimal rendering of a natural number, without leading zeros,
      as JavaScript's `String(n)` produces it for a non-negative integer. */
  function NatToDecimal(n: nat): (s: string)
    ensures 1 <= |s| && AllDigits(s)
    ensures s[0] == '0' ==> n == 0 && |s| == 1
  {
    if n < 10 then [DigitChar(n)] else NatToDecimal(n / 10) + [DigitChar(n % 10)]
  }

  /** The number a string of decimal digits denotes (most significant first). */
  function DigitsValue(s: string): nat
    requires AllDigits(s)
  {
    if |s| == 0 then 0 else DigitsValue(s[..|s| - 1]) * 10 + DigitValue(s[|s| - 1])
  }

  lemma {:induction false} DigitsValueOfDecimal(n: nat)
    ensures DigitsValue(NatToDecimal(n)) == n
  {
    if n >= 10 {
      var s := NatToDecimal(n);
      assert s[..|s| - 1] == NatToDecimal(n / 10);
      DigitsValueOfDecimal(n / 10);
    }
  }

  /** The decimal rendering of an integer, with a leading '-' when negative
      (`String(n)` / `${n}` for an integral JavaScript number). */
  function IntToDecimal(i: int): string {
    if i < 0 then "-" + NatToDecimal(-i) else NatToDecimal(i)
  }

  /** Reads back an optional '-' followed by at least one digit. */
  function ParseDecimal(s: string): Option<int> {
    if |s| > 0 && s[0] == '-' then
      if |s| > 1 && AllDigits(s[1..]) then Some(0 - DigitsValue(s[1..])) else None
    else if |s| > 0 && AllDigits(s) then Some(DigitsValue(s))
    else None
  }

  /** Rendering an integer in decimal loses nothing. */
  lemma IntToDecimalRoundTrip(i: int)
    ensures ParseDecimal(IntToDecimal(i)) == Some(i)
  {
    var s := IntToDecimal(i);
    if i < 0 {
      var digits := NatToDecimal(-i);
      assert s[1..] == digits;
      assert AllDigits(s[1..]);
      DigitsValueOfDecimal(-i);
    } else {
      assert s[0] != '-' by { assert IsDigit(s[0]); }
      DigitsValueOfDecimal(i);
    }
  }

  /** No decimal rendering contains the character `c` unless `c` is a digit or '-'. */
  lemma IntToDecimalChars(i: int)
    ensures forall k :: 0 <= k < |IntToDecimal(i)| ==> IsDigit(IntToDecimal(i)[k]) || IntToDecimal(i)[k] == '-'
  {
  }

  /** Decimal text as `String(n)` writes it: an optional '-', then digits
      with no leading zero (a lone "0" aside), and never "-0". */
  predicate IsCanonicalDecimal(s: string) {
    if |s| > 0 && s[0] == '-' then |s| > 1 && AllDigits(s[1..]) && s[1] != '0'
    else |s| > 0 && AllDigits(s) && (s[0] == '0' ==> |s| == 1)
  }

  lemma {:induction false} LeadingDigitPositive(s: string)
    requires AllDigits(s) && |s| >= 1 && s[0] != '0'
    ensures DigitsValue(s) >= 1
  {
    if |s| > 1 {
      assert s[..|s| - 1][0] == s[0];
      LeadingDigitPositive(s[..|s| - 1]);
    }
  }

  /** Digits without a leading zero are the only rendering of their value. */
  lemma {:induction false} CanonicalDigits(s: string)
    requires AllDigits(s) && |s| >= 1 && (s[0] == '0' ==> |s| == 1)
    ensures s == NatToDecimal(DigitsValue(s))
  {
    if |s| == 1 {
      assert [DigitChar(DigitValue(s[0]))] == s;
    } else {
      var p := s[..|s| - 1];
      assert p[0] == s[0];
      CanonicalDigits(p);
      LeadingDigitPositive(p);
      var n := DigitsValue(s);
      assert n / 10 == DigitsValue(p) && n % 10 == DigitValue(s[|s| - 1]);
      assert DigitChar(n % 10) == s[|s| - 1];
      assert s == p + [s[|s| - 1]];
    }
  }

  /** Canonical decimal text is exactly what `IntToDecimal` writes: every
      rendering is canonical, and a canonical text is the rendering of the
      number it reads as. */
  lemma CanonicalDecimal(s: string)
    ensures IsCanonicalDecimal(s) <==> ParseDecimal(s).Some? && s == IntToDecimal(ParseDecimal(s).value)
  {
    if IsCanonicalDecimal(s) {
      if s[0] == '-' {
        var digits := s[1..];
        CanonicalDigits(digits);
        LeadingDigitPositive(digits);
        assert s == "-" + digits;
      } else {
        CanonicalDigits(s);
      }
    }
    if ParseDecimal(s).Some? && s == IntToDecimal(ParseDecimal(s).value) {
      var i := ParseDecimal(s).value;
      if i < 0 {
        assert s[1..] == NatToDecimal(-i);
      }
    }
  }

  // ----- padStart -----

  /** `s.padStart(width, fill)` for a one-character fill: prefixes copies of
      `fill` until the string is `width` long; a longer string is unchanged. */
  function PadStart(s: string, width: nat, fill: char): (r: string)
    ensures |r| == if |s| >= width then |s| else width
    ensures r[|r| - |s|..] == s
    ensures forall k :: 0 <= k < |r| - |s| ==> r[k] == fill
  {
    if |s| >= width then s
    else
      var pad := seq(width - |s|, _ => fill);
      assert (pad + s)[|pad|..] == s;
      pad + s
  }

  // ----- trim -----

  /** The characters `String.prototype.trim` removes: ECMAScript WhiteSpace
      and LineTerminator code points. */
  predicate IsSpace(c: char) {
    || c == '\t' || c == '\n' || c == '\U{000B}' || c == '\U{000C}' || c == '\r' || c == ' '
    || c == '\U{00A0}' || c == '\U{1680}' || ('\U{2000}' <= c <= '\U{200A}')
    || c == '\U{2028}' || c == '\U{2029}' || c == '\U{202F}' || c == '\U{205F}'
    || c == '\U{3000}' || c == '\U{FEFF}'
  }

  predicate AllSpace(s: string) {
    forall k :: 0 <= k < |s| ==> IsSpace(s[k])
  }

  /** Drops the leading white space: the result is a suffix of `s`, everything
      dropped is white space, and the result does not start with white space. */
  function TrimStart(s: string): (r: string)
    ensures |r| <= |s| && r == s[|s| - |r|..]
    ensures AllSpace(s[..|s| - |r|])
    ensures r != [] ==> !IsSpace(r[0])
  {
    if s != [] && IsSpace(s[0]) then
      var r := TrimStart(s[1..]);
      var n := |s| - |r|;
      assert s[1..][n - 1..] == s[n..];
      assert forall k :: 1 <= k < n ==> s[..n][k] == s[1..][..n - 1][k - 1];
      r
    else s
  }

  /** Drops the trailing white space: the result is a prefix of `s`, everything
      dropped is white space, and the result does not end with white space. */
  function TrimEnd(s: string): (r: string)
    ensures |r| <= |s| && r == s[..|r|]
    ensures AllSpace(s[|r|..])
    ensures r != [] ==> !IsSpace(r[|r| - 1])
  {
    if s != [] && IsSpace(s[|s| - 1]) then
      var r := TrimEnd(s[..|s| - 1]);
      assert s[..|s| - 1][..|r|] == s[..|r|];
      assert forall k :: |r| <= k < |s| - 1 ==> s[k] == s[..|s| - 1][|r|..][k - |r|];
      r
    else s
  }

  /** `s.trim()`: white space removed from both ends. */
  function Trim(s: string): (r: string)
    ensures r != [] ==> !IsSpace(r[0]) && !IsSpace(r[|r| - 1])
    ensures r == [] <==> AllSpace(s)
  {
    var t := TrimStart(s);
    TrimEmptyIff(s);
    TrimEnd(t)
  }

  lemma AllSpaceJoin(a: string, b: string)
    requires AllSpace(a) && AllSpace(b)
    ensures AllSpace(a + b)
  {
    forall k | 0 <= k < |a + b|
      ensures IsSpace((a + b)[k])
    {
      if k >= |a| {
        assert (a + b)[k] == b[k - |a|];
      }
    }
  }

  lemma SliceJoin(s: string, i: nat)
    requires i <= |s|
    ensures s[..i] + s[i..] == s
  {
  }

  lemma TrimEmptyIff(s: string)
    ensures TrimEnd(TrimStart(s)) == [] <==> AllSpace(s)
  {
    var t := TrimStart(s);
    var r := TrimEnd(t);
    var i := |s| - |t|;
    assert t == s[i..];
    if r == [] {
      assert t[|r|..] == t;
      SliceJoin(s, i);
      AllSpaceJoin(s[..i], t);
    }
    if t != [] {
      assert t[0] == s[i];
      assert !AllSpace(s);
    }
  }

  /** `r` is the slice of `s` starting at `i`, with only white space on
      either side of it. */
  predicate SpaceBounded(s: string, r: string, i: nat) {
    i + |r| <= |s| && r == s[i..i + |r|] && AllSpace(s[..i]) && AllSpace(s[i + |r|..])
  }

  /** What `Trim` keeps is one contiguous slice of the input, and all it
      removes on either side is white space. */
  lemma TrimIsSlice(s: string)
    ensures exists i: nat :: SpaceBounded(s, Trim(s), i)
  {
    var t := TrimStart(s);
    var r := TrimEnd(t);
    assert r == Trim(s);
    var i := |s| - |t|;
    assert t == s[i..];
    assert r == t[..|r|];
    assert r == s[i..i + |r|];
    assert s[i + |r|..] == t[|r|..];
    assert SpaceBounded(s, r, i);
  }

  /** Trimming twice is trimming once. */
  lemma TrimIdempotent(s: string)
    ensures Trim(Trim(s)) == Trim(s)
  {
    var r := Trim(s);
    if r != [] {
      assert !IsSpace(r[0]) && !IsSpace(r[|r| - 1]);
      assert TrimStart(r) == r;
      assert TrimEnd(r) == r;
    }
  }
}

=== FILE: wrappers.dfy ===
/** Failure-carrying result types shared by the other modules. */
module Wrappers {

  /** A value that may be absent (JavaScript's `undefined`/`null` where it matters). */
  datatype Option<+T> = None | Some(value: T)

  /** The outcome of an operation that produces a value or reports an error. */
  datatype Result<+T, +E> = Ok(value: T) | Err(error: E)

  /** The outcome of a check that produces no value. */
  datatype Outcome<+E> = Pass | Fail(error: E)
}
